=== FILE: README.md ===
# Read-through item cache: a Dafny model

This project models the caching core of an item service written with FastAPI, SQLAlchemy and
Redis. The central piece is the `cache` decorator of `utils/cache.py`. It computes a key from the
call's arguments and GETs it. On a non-empty value it decodes the value and returns it. Otherwise
it runs the wrapped function, stores its JSON encoding with SETEX for a time to live, and returns
the result. Any exception on the way is answered by running the function once more, uncached.

Around the decorator, the model covers:

- `invalidate_cache`, the KEYS + DEL sweep that update and delete use;
- the Redis health probes;
- `handle_repo_errors`, which turns database exceptions into a rollback and a fixed HTTP error;
- the item repository and the item service that sit on the cache;
- the `ItemCreate` request validation;
- the scrubber and level gates of the logger;
- the health endpoints.

Modules follow the program's files:

| module | file | models |
|---|---|---|
| `Values` | `values.dfy` | Python values and JSON encodability |
| `Text` | `text.dfy` | string helpers, Python `int()` and `str()` |
| `Responses` | `responses.dfy` | `StandardResponse` and `RepositoryResponse` |
| `Errors` | `errors.dfy` | the exception classes |
| `CacheKey` | `cache_key.dfy` | `create_cache_key` |
| `Glob` | `glob.dfy` | KEYS patterns |
| `Backend` | `backend.dfy` | Redis as a map with time to live |
| `Cache` | `cache.dfy` | the decorator, invalidation and health probes |
| `RepoErrors` | `repo_errors.dfy` | `handle_repo_errors` |
| `ItemRequest` | `item_request.dfy` | `ItemCreate` |
| `ItemRepository` | `item_repository.dfy` | the repository |
| `ItemService` | `item_service.dfy` | the service |
| `Logger` | `logger.dfy` | `utils/logger.py` |
| `Health` | `health.dfy` | `health/health_check.py` |

The outside world is passed in as parameters:

- **Redis failures** are a `Faults` record saying which commands raise.
- **Database failures** are a `RepoFault`, or `nat -> Option<RepoFault>` for each run of a body.
  A failure during a create or an update is a `WriteFault`, which also says where it strikes:
  before any statement reaches the database, at the database (the flushed INSERT or UPDATE, or
  the commit itself), or after the commit.
- **The wrapped function** is `produce: nat -> Outcome`, indexed by how many times it has run in
  this call.
- **Python's `str()` of a result** is a function `show`.
- **The clock** is a `now` string and an `elapsed` number of seconds.

Where the code and its description disagree, the model follows the code:

- **The producer can run twice in one call.** If the wrapped function raises on a miss, the
  decorator's `except Exception` catches it and runs the function again. Only the second
  outcome is seen.
- **A missing row is looked up twice.** `get_item` raises `NotFoundException`, which the cache
  catches, so the repository is queried a second time before the 404 propagates.
- **`delete_item` never returns normally.** Its repository response carries the id string as
  `data`, and `data.to_dict()` raises `AttributeError`. This happens after the row has been
  deleted and the cache entry invalidated.
- **An `INVALID_ID` response also raises `AttributeError`** in `get_item` and `update_item`,
  because its `data` is `None`.
- **A `ValueError` from the database is reported as `INVALID_ID`** in get, update and delete,
  because it is caught by the `except ValueError` that guards `int(id)`.
- **A failure after the commit keeps the write.** `create_item` and `update_item` call `refresh`
  after `commit`. If `refresh` raises, the handler's rollback has nothing left to undo: the row is
  written, yet the caller gets a 500, and `update_item` never reaches its invalidation.
- **The service is modelled with the corrected message rule.** `ItemService.GetItem` treats an
  explicit `message=None` as "no message" when it rebuilds a hit (see Findings). The members whose
  row says "with `None` accepted" depend on that correction; `ItemService.CachedGetItem` takes the
  rule as a parameter, and `ItemService.ItemHitsNeverServedAsDeclared` states the code as written.

## Model

| member | source | states |
|---|---|---|
| CacheKey.CreateCacheKey | utils/cache.py:49-68 | every key starts with the prefix it was built from |
| CacheKey.SortByName | utils/cache.py:62 | keyword arguments come out strictly ordered by name and are a permutation of the input |
| CacheKey.KeyDependsOnlyOnScalars | utils/cache.py:57-64 | calls with the same scalar positional arguments and the same scalar keyword arguments get the same key, whatever their non-scalar arguments |
| CacheKey.KeyIgnoresKeywordOrder | utils/cache.py:61-64 | permuting keyword arguments does not change the key |
| CacheKey.MethodKeyWithOneString | utils/cache.py:54-68 | a method called with one string argument is keyed `prefix:arg`; the receiver adds nothing |
| CacheKey.IntAndStringCollide | utils/cache.py:58-59 | the int 1 and the string "1" produce the same key |
| Glob.LiteralMatchesItself | utils/cache.py:236 | a KEYS pattern without `*` matches exactly the string it spells |
| Glob.LiteralThenStar | utils/cache.py:236 | `p*` matches exactly the strings starting with `p` |
| Backend.Setex | utils/cache.py:135-139 | SETEX succeeds exactly when the command works and the ttl is positive; it sets the one key and keeps the rest |
| Backend.Keys | utils/cache.py:236 | KEYS returns exactly the stored keys the pattern matches |
| Backend.Delete | utils/cache.py:239 | DEL removes exactly the given keys and keeps the other values |
| Backend.Expire | utils/cache.py:135-139 | after `elapsed` seconds an entry survives exactly when its ttl exceeds it, with the same payload |
| Backend.TtlBoundary | utils/cache.py:135-139 | an entry written with ttl `t` can be read back unchanged before `t` seconds and is gone at `t` |
| Values.Stringify | utils/cache.py:128 | `json.dumps(v, default=str)` always yields JSON and leaves JSON-encodable values unchanged |
| Responses.ToDict | models/response/StandardResponse.py:9-14 | the dict has keys data, status, message in that order and carries the status |
| Responses.Construct | models/response/StandardResponse.py:4-7 | a response is built iff `data` is a dict or `None`, `status` a string, and `message` a string (or, with `None` accepted, `None`), each when passed; the given dict and strings are kept, defaults apply for missing arguments, and an explicit `message=None` is rejected under the declared `str` type |
| Responses.FromToDict | utils/cache.py:102-103 | rebuilding a response from its own dict gives it back when `None` is an acceptable message |
| Responses.FromToDictAsDeclared | models/response/StandardResponse.py:7 | under the declared type, the rebuild succeeds exactly when the response has a message |
| Errors.StatusCode | exceptions_handler.py:7-33 | not found is 404; unexpected, database and integrity errors are 500; an `AttributeError` or `TypeError` has no status |
| Cache.Encode | utils/cache.py:120-132 | whatever the producer returns, the stored bytes are non-empty JSON |
| Cache.Decode | utils/cache.py:90-114 | empty or non-JSON bytes give no value; a non-response function gets the JSON back; a response function gets a response or an error |
| Cache.ResponseRoundTrip | utils/cache.py:102-125 | with `None` accepted as a message, a response whose dict JSON can encode is returned unchanged by the hit after its fill |
| Cache.ResponseStoredAsString | utils/cache.py:104-132 | a response JSON cannot encode is stored as its `str()`, and a hit returns that text wrapped under "response" |
| Cache.PlainRoundTrip | utils/cache.py:112-128 | a plain value comes back with opaque objects replaced by their `str()`, and unchanged when it is JSON |
| Cache.WrappedHitRejectedAsDeclared | utils/cache.py:104-111 | under the declared message type, a cached string or scalar never decodes into a response |
| Cache.StringHitServed | utils/cache.py:104-107 | with `None` accepted, a cached string decodes to a success response wrapping it |
| Cache.CachedValueHitServed | utils/cache.py:108-111 | with `None` accepted as a message, a cached JSON value that is neither an object nor a string decodes to a success response wrapping it under "cached_value" |
| Cache.CachedCall | utils/cache.py:85-149 | the producer runs at most twice and only its own outcome is returned; no producer run iff the entry is found and decodes; the only write is the first result's encoding under the key with the ttl; GET, producer and SETEX failures each degrade to an uncached call; an entry that is found but does not decode is answered by one producer run and left in place |
| Cache.EffectiveTtl | utils/cache.py:79 | a missing or zero ttl becomes the default; any other ttl is kept |
| Cache.CachedFunctionCall | utils/cache.py:79-90 | every entry a decorated function writes is under a key starting with its prefix, with the effective ttl, and no key is removed; a keyword argument named `prefix` raises a `TypeError` before anything runs or is written; otherwise only the producer's own exceptions reach the caller |
| Cache.FillThenHit | utils/cache.py:90-140 | after a call that filled the cache, the next call with working GET returns the decoded entry, runs nothing and writes nothing |
| Cache.ResponseFillThenHit | utils/cache.py:90-140 | with `None` accepted as a message, for a JSON-encodable response the miss returns the producer's response and the following hit returns the same response |
| Cache.StringHitRunsProducerAsDeclared | utils/cache.py:104-149 | as written, a string hit raises inside the wrapper, so the producer runs and nothing is written |
| Cache.StringHitServedCall | utils/cache.py:104-107 | corrected, a string hit is served without running the producer |
| Cache.HitsUntilExpiry | utils/cache.py:90-139 | a filled entry answers hits exactly while its ttl has not elapsed |
| Cache.Invalidate | utils/cache.py:226-244 | only entries matching `prefix:pattern` are deleted, and all of them when commands work; DEL is sent iff KEYS worked and matched something; failures are swallowed and leave the store as it was |
| Cache.InvalidateOne | utils/cache.py:236-239 | for a prefix and id without `*`, exactly `prefix:id` is removed |
| Cache.InvalidateAllThenMiss | utils/cache.py:226-239 | after invalidating a prefix with `*`, every key under it misses, and keys under other prefixes keep their entries |
| Cache.HealthProbe | utils/cache.py:258-303 | healthy iff SETEX and GET both work and the sentinel is still there; each failure gets its own message; a healthy probe leaves the sentinel with ttl 10 |
| RepoErrors.Classify | utils/handle_repo_errors.py:13-35 | IntegrityError maps to the integrity exception, SQLAlchemyError to the database exception, anything else to the unexpected exception; a duplicate is reported iff the text mentions a unique constraint; all are 500 and the raw text goes only into `data` |
| RepoErrors.DetailIsFixed | utils/handle_repo_errors.py:15-35 | the raised detail is one of four fixed strings and does not reveal the driver's text |
| RepoErrors.HandleRepoErrors | utils/handle_repo_errors.py:8-36 | a normal return passes through without rollback; a failure rolls the session back to its last commit, so a committed write stays, and raises a 500 with a fixed detail whose class follows the exception's |
| ItemRequest.StrField | models/request/item.py:6-12 | a string field is accepted iff it is a string whose form stripped of Unicode whitespace has length 1..max, and the stripped form is kept |
| Text.WhiteSpaceSetsDiffer | models/request/item.py:12 | the request strips Unicode `White_Space`, which lacks U+001C..U+001F: U+001F is kept on a name while Python's `int()` strips it from an id; the no-break-space half only contrasts with the model's ASCII `int()` (see `Text.ParseInt` under Left out), since CPython's `int()` strips U+00A0 too |
| ItemRequest.PriceField | models/request/item.py:8 | the price is accepted iff it is an int or float greater than zero |
| ItemRequest.Extras | models/request/item.py:13 | every key outside name, description and price is reported as forbidden, nothing else is, and the list is empty iff every key is a field |
| ItemRequest.Validate | models/request/item.py:5-14 | a body is accepted iff it is an object whose name, description and price each pass and which has no other key, and then the request holds the stripped strings and the price; an accepted request fits the 50 and 500 character limits with a positive price; a rejection lists at least one error |
| ItemRequest.ValidateDumpRoundTrip | models/request/item.py:5-14 | validating the dump of an accepted request accepts the same request again |
| ItemRequest.DumpFields | models/request/item.py:5-14 | a stripped request within the bounds validates to itself |
| ItemRequest.BlankNameRejected | models/request/item.py:6-12 | a name made only of Unicode whitespace is rejected as too short, whatever its raw length |
| ItemRepository.ItemToDict | models/data/item.py:21-30 | the dict has the six columns in order, carries the id, and JSON cannot encode it because of the timestamps |
| ItemRepository.CreateItem | repository/implementations/item_repository.py:19-27 | the create succeeds iff nothing fails, adding exactly one row under a fresh id with the request's fields; a failure rolls back and raises a 500; before the commit the rows are unchanged, and the sequence has advanced past the id iff the INSERT reached the database; after the commit the new row stays |
| ItemRepository.FailedInsertSkipsId | repository/implementations/item_repository.py:19-27 | after an INSERT that failed at the database, the next successful create takes the id after the lost one, and the lost id names no row |
| ItemRepository.GetItem | repository/implementations/item_repository.py:29-44 | an id that `int()` rejects gives INVALID_ID; success iff the parsed id has a row, returning that row; otherwise ITEM_NOT_FOUND; only a non-ValueError fault raises |
| ItemRepository.UpdateItem | repository/implementations/item_repository.py:46-67 | success iff the row exists and nothing fails; the table changes iff the update commits, even when `refresh` then fails, and then only that row is overwritten, keeping its id and creation time; a `ValueError` anywhere gives INVALID_ID and any other failure a 500 |
| ItemRepository.DeleteItem | repository/implementations/item_repository.py:69-84 | success iff the row exists and nothing fails; only then is exactly that row removed, and the response carries the id text |
| ItemRepository.WriteThenRead | repository/implementations/item_repository.py:19-84 | a created row is found under its new id, an updated row shows the new fields, and a deleted row is not found |
| ItemRepository.SpellingsShareRow | repository/implementations/item_repository.py:34 | "042" and "42" parse to the same row id |
| ItemService.ItemKey | service/item.py:43-44 | the key of `get_item(id)` is the one `create_cache_key` builds from prefix "item" and the id |
| ItemService.Respond | service/item.py:67-71 | building the response succeeds iff the repository data is an item; otherwise it raises `AttributeError` |
| ItemService.GetItemBody | service/item.py:44-71 | returns the row's response iff the id parses, nothing fails and the row exists; a missing row raises a not-found error with the repository's message |
| ItemService.CachedGetItem | service/item.py:42-71 | the table is untouched; the only entry written is `item:<id>`, with ttl 300, holding the encoding of the first run's found-item response; the caller sees the last run's outcome |
| ItemService.GetItem | service/item.py:42-71 | the table is untouched and the cache is written only when a result is returned |
| ItemService.GetItemServesStringHit | service/item.py:43-44 | with `None` accepted as a message, a string cached under `item:<id>` is served wrapped as `{"response": ...}`, without running the body and without writing |
| ItemService.UpdateItem | service/item.py:73-103 | the table changes iff the repository commits, exactly as a clean update would change it; the cache changes only after a successful update, and only `item:<id>` is removed; an unknown row raises not found; a database failure other than `ValueError` raises a 500 |
| ItemService.DeleteItem | service/item.py:105-122 | the call always raises; after a successful delete the row is gone and only `item:<id>` is invalidated |
| ItemService.CreateItem | service/item.py:23-40 | create never touches the cache; a database failure raises a 500; before the commit the rows are unchanged (an INSERT that reached the database still uses up its id), after it the table holds the new row |
| ItemService.InvalidateItemKey | service/item.py:81 | for an id `int()` accepts, invalidation removes exactly the `get_item` entry of that id when commands work, and never touches another key |
| ItemService.UpdateThenGetReloads | service/item.py:73-81 | after an update, the next lookup misses, runs the body once, and returns the updated row |
| ItemService.NotFoundNeverCached | service/item.py:56-64 | a lookup of a missing row runs the body twice, raises a 404 and leaves the cache and table unchanged |
| ItemService.DeleteThenGetMisses | service/item.py:105-110 | after a delete, a lookup of the id runs the body twice and raises not found |
| ItemService.CachedItemBecomesString | service/item.py:42-71 | with `None` accepted as a message, a found row is cached as the `str()` of its response, and the next lookup returns that text under "response" without reading the table |
| ItemService.ResponseNotJson | models/data/item.py:28-29 | the response for a found row cannot be encoded as JSON |
| ItemService.ItemHitsNeverServedAsDeclared | service/item.py:43-44 | as written, the entry a lookup fills is never served: every later lookup runs the body again |
| ItemService.AlternateSpellingStaysStale | service/item.py:81 | with `None` accepted as a message, updating row 42 through "042" leaves the entry cached for "42", which keeps being served |
| ItemService.CommittedUpdateKeepsStaleEntry | service/item.py:73-81 | when `refresh` fails after the update's commit, the row is updated, the caller gets a 500, the entry under `item:<id>` is kept, and with `None` accepted as a message the next lookup answers from it without reading the table |
| Logger.Scrub | utils/logger.py:37-62 | a non-dict is returned as is; a dict keeps its keys, truthy sensitive values become the mask, and other scalars are copied |
| Logger.ScrubField | utils/logger.py:44-60 | scrubbing a value preserves its truthiness; an unmasked dict stays a dict; an unmasked list keeps its length, its elements that are not dicts, and which of its elements are dicts |
| Logger.ScrubIdempotent | utils/logger.py:37-62 | scrubbing twice equals scrubbing once |
| Logger.ScrubClean | utils/logger.py:37-62 | whatever the input, every sensitive key the scrubber reaches (at the top, in nested dicts, and in dicts inside lists) ends up holding the mask or a falsy value |
| Logger.CleanUnchanged | utils/logger.py:37-62 | a value with no secret left where the scrubber looks is returned unchanged, so with `Logger.ScrubClean` the scrubber's fixed points are exactly the clean values |
| Logger.NoSecretSurvives | utils/logger.py:45-49 | a top-level sensitive key ends up holding the mask or a falsy value |
| Logger.SensitiveExamples | utils/logger.py:30-45 | matching is by substring of the lower-cased key, so "API_Key" and "author" are both sensitive |
| Logger.LevelFromName | utils/logger.py:14-17 | a level name maps to a standard level, and an unknown name maps to INFO |
| Logger.SetLevelGates | utils/logger.py:108-128 | after `set_level(DEBUG)` every severity is emitted; after `set_level(0)` debug and info are emitted exactly when the root logger's level allows them |
| Logger.Log | utils/logger.py:113-158 | a record is emitted iff the method's own gate and the Python logger's level both allow it; it carries the message and the scrubbed extra |
| Logger.Put | utils/logger.py:170 | after assigning a key, a lookup finds the new value, and the key set grows only by a new key |
| Logger.LogException | utils/logger.py:160-179 | only critical exceptions, or any exception in development, are logged; the default message is "Exception: " and the text; the extra records the class name |
| Logger.LevelGates | utils/logger.py:113-158 | warn and error bypass the logger's own gate; debug and info follow `log_level` unless a level of 0 defers to a stricter root |
| Health.CheckDatabase | health/health_check.py:48-72 | the database is healthy iff `SELECT 1` succeeds, and the error text is reported otherwise |
| Health.CheckRedisCache | health/health_check.py:74-101 | the cache is healthy iff the probe succeeds and says so; its message goes to details when healthy and to error otherwise |
| Health.AnyWithMeans | health/health_check.py:152-154 | `any(...)` over the dependencies holds iff some dependency has that status |
| Health.Overall | health/health_check.py:151-157 | unhealthy iff some dependency is; degraded iff none is unhealthy and some is degraded; healthy iff all are |
| Health.HealthCheck | health/health_check.py:138-176 | the check passes iff the database and the cache probe are both fine, and is then healthy; otherwise it is a 503 whose detail is unhealthy |
| Health.NeverDegraded | health/health_check.py:57-101 | neither dependency check reports degraded, so the overall status is never degraded |
| Health.CacheDependencyFollowsProbe | health/health_check.py:79-90 | the cache dependency is healthy iff the sentinel can be written and read back |
| Health.Readiness | health/health_check.py:117-133 | ready iff `SELECT 1` succeeds; otherwise a 503 "Service not ready" |
| Health.Liveness | health/health_check.py:107-112 | always answers status "alive" |
| Health.HealthyImpliesReady | health/health_check.py:117-176 | whenever the full check passes, the readiness check does too |

## Left out

- The synchronous wrapper and `cache_health_check` duplicate the asynchronous ones line for line. They are modelled once. The sentinel key is a parameter of `Cache.HealthProbe`.
- `clear_all_cache` (FLUSHDB) is not called by the service, so it is not modelled.
- Concurrency is not modelled: calls are sequential transitions. A sentinel lost between SETEX and GET is a `lost` flag.
- KEYS patterns are modelled with `*` only. The metacharacters `?`, `[...]` and `\` match themselves literally in the model.
- The JSON text is abstract: a stored payload is either blank, a JSON value, or bytes that are not JSON.
- Python's `str()` of a response object is the parameter `show`, because its text depends on pydantic's repr.
- Float rendering in keys and in `str()` is not modelled. A float argument carries its text.
- `Text.ParseInt`: covers ASCII `int()` only; Unicode digits and whitespace are not modelled.
- `CacheKey.CreateCacheKey`: builds a key for any keyword names. The `TypeError` that a keyword named `prefix` raises when the key builder is called is modelled in `Cache.CachedFunctionCall`.
- `ItemRequest.StrField`: strips the Unicode `White_Space` set, as Rust's `str::trim` in pydantic-core does; it does not model any other normalisation.
- `Text.Lower`: folds ASCII only.
- `ItemRequest.PriceField`: does not model pydantic's lax float coercion of numeric strings (`"3.5"`) and booleans (`true`) to a price. Such input is rejected as the wrong type, and so `ItemRequest.Validate` rejects it too.
- `ItemRequest.Validate`: does not model the order of the error list, or pydantic's error messages.
- `ItemRepository.UpdateItem`: stamps `updated_at` with `now` on every update. SQLAlchemy's `onupdate` skips the stamp when no column actually changed.
- The `RepositoryResponse` whitespace stripping is left out. It cannot change any message: they all begin and end with fixed text.
- The service's log calls are left out.
- `log_performance_async` and `PerformanceTracker` are left out: they only time calls and log.
- OpenTelemetry spans, attributes and events are left out.
- `logger.exception`'s `source` entry is left out: it is taken from the caller's stack frame.
- `Logger.LevelFromName`: maps only the level names `logging` defines. Any other attribute name `getattr` could find is treated as unknown.
- Response times, `last_checked`, the timestamp and `uptime_seconds` of the health endpoints are left out: they depend on the clock.

## Findings

| source | as written | input that shows it | evidently intended | confidence | as-written member | corrected member |
|---|---|---|---|---|---|---|
| models/response/StandardResponse.py:7 | `message` is declared `str` with a `None` default. Pydantic v2 therefore rejects the explicit `message=None` that the cache hit paths at utils/cache.py:107 and :111 pass. It also rejects a cached dict whose message is null (utils/cache.py:103). The hit raises, the decorator's `except Exception` catches it, and the function runs again. Every hit of `get_item` is stored as a string because its dict holds datetimes, so no such hit is ever served. | `get_item("1")` twice with row 1 present: the second call finds `"<str of response>"` in Redis and still queries the database | a hit is served as a `StandardResponse` with no message (an `Optional[str]` field) | medium, not executed | ItemService.ItemHitsNeverServedAsDeclared | ItemService.CachedItemBecomesString |

=== FILE: backend.dfy ===
/** The Redis database the cache talks to, as a map from key to stored bytes with a remaining
    time to live, and the five commands the cache issues: GET, SETEX, KEYS, DEL, and the
    passage of time that expires entries. Any command may fail; the failure it raises is
    given as a parameter, since the network is outside the model. */
module Backend {
  import opened Wrappers
  import opened Values
  import opened Glob

  /** The bytes stored under a key, as the cache reads them. */
  datatype Payload =
    /** `b""`, which is falsy */
    | Blank
    /** the text `json.dumps` produced for `json`; `json.loads` gives `json` back */
    | Encoded(json: Value)
    /** non-empty bytes that are not JSON text */
    | Garbled
  {
    /** Python truthiness of the bytes. */
    predicate NonEmpty() {
      !Blank?
    }
  }

  /** A stored value and the seconds it has left to live. */
  datatype CacheEntry = CacheEntry(payload: Payload, ttl: int)

  type Store = map<string, CacheEntry>

  /** What a failing command raises: a `redis.RedisError`, or any other exception. */
  datatype Fault = RedisError(msg: string) | OtherError(msg: string)

  /** For each command, the failure it raises in this run, if any. */
  datatype Faults = Faults(get: Option<Fault>, setex: Option<Fault>, keys: Option<Fault>, delete: Option<Fault>)

  const NoFaults := Faults(None, None, None, None)

  /** GET: the stored bytes, or `None` for an absent key. */
  function Get(store: Store, fault: Option<Fault>, key: string): Result<Option<Payload>, Fault>
  {
    if fault.Some? then Err(fault.value)
    else if key in store then Ok(Some(store[key].payload))
    else Ok(None)
  }

  /** SETEX key ttl payload. Redis refuses a non-positive expire time. */
  function Setex(store: Store, fault: Option<Fault>, key: string, ttl: int, payload: Payload): (r: Result<Store, Fault>)
    ensures r.Ok? <==> fault.None? && ttl > 0
    ensures r.Ok? ==> r.value.Keys == store.Keys + {key} && r.value[key] == CacheEntry(payload, ttl)
    ensures r.Ok? ==> forall k :: k in store && k != key ==> r.value[k] == store[k]
  {
    if fault.Some? then Err(fault.value)
    else if ttl <= 0 then Err(RedisError("invalid expire time in 'setex' command"))
    else Ok(store[key := CacheEntry(payload, ttl)])
  }

  /** KEYS pattern */
  function Keys(store: Store, fault: Option<Fault>, pattern: string): (r: Result<set<string>, Fault>)
    ensures r.Ok? <==> fault.None?
    ensures r.Ok? ==> forall k :: k in r.value <==> k in store && Matches(pattern, k)
  {
    if fault.Some? then Err(fault.value)
    else Ok(set k | k in store.Keys && Matches(pattern, k))
  }

  /** DEL key... */
  function Delete(store: Store, fault: Option<Fault>, keys: set<string>): (r: Result<Store, Fault>)
    ensures r.Ok? <==> fault.None?
    ensures r.Ok? ==> r.value.Keys == store.Keys - keys
    ensures r.Ok? ==> forall k :: k in r.value ==> r.value[k] == store[k]
  {
    if fault.Some? then Err(fault.value) else Ok(store - keys)
  }

  /** The store after `elapsed` seconds: entries whose time ran out are gone, the others have
      that much less time left. */
  function Expire(store: Store, elapsed: nat): (r: Store)
    ensures forall k :: k in r <==> k in store && store[k].ttl > elapsed
    ensures forall k :: k in r ==> r[k] == CacheEntry(store[k].payload, store[k].ttl - elapsed)
  {
    map k | k in store && store[k].ttl > elapsed :: CacheEntry(store[k].payload, store[k].ttl - elapsed)
  }

  /** An entry written with time to live `t` is still readable `t - 1` seconds later, holding
      what was written, and is gone `t` seconds later. */
  lemma TtlBoundary(store: Store, key: string, ttl: int, payload: Payload, elapsed: nat)
    requires Setex(store, None, key, ttl, payload).Ok?
    ensures key in Expire(Setex(store, None, key, ttl, payload).value, elapsed) <==> elapsed < ttl
    ensures elapsed < ttl ==> Expire(Setex(store, None, key, ttl, payload).value, elapsed)[key].payload == payload
  {
  }
}

=== FILE: cache.dfy ===
/** The read-through cache of `utils/cache.py`: the `cache` decorator's wrapper (one call of a
    decorated function), `invalidate_cache`, and the health probe `cache_health_check`.

    A call of the wrapped function is a transition of the backend store. The wrapped function
    itself, the producer, is `produce(n)`: the outcome of its `n`-th invocation within the call
    (0 for the first, 1 for the retry the error handler makes). */
module Cache {
  import opened Wrappers
  import opened Values
  import opened Responses
  import opened Errors
  import opened Text
  import opened Glob
  import opened CacheKey
  import opened Backend

  /** `REDIS_TTL`, the configured default time to live in seconds. */
  const RedisTtl := 300

  /** The declared return type of the decorated function: `StandardResponse`, or anything else. */
  datatype Shape = ResponseShape | AnyShape

  /** What the producer returns: an object with `to_dict` (a `StandardResponse`), or a plain value. */
  datatype Produced = Response(r: StandardResponse) | Plain(v: Value)

  /** A call either returns a value or raises. */
  datatype Outcome = Returned(value: Produced) | Raised(exc: Exc)

  /** The result of one call of the wrapper: the store afterwards, what the caller sees, and how
      many times the producer ran. */
  datatype Call = Call(store: Store, outcome: Outcome, calls: nat)

  // ---------------- Serialization ----------------

  /** What the wrapper writes for a produced result: `json.dumps(result.to_dict())` for a
      response, falling back to `json.dumps(str(result))` when the dict holds something JSON
      cannot encode; `json.dumps(result, default=str)` for a plain value. `show` is Python's
      `str()` of a result, which the model does not fix. */
  function Encode(p: Produced, show: Produced -> string): (payload: Payload)
    ensures payload.Encoded? && payload.NonEmpty() && IsJson(payload.json)
  {
    match p
    case Response(r) =>
      if IsJson(VDict(ToDict(r))) then Encoded(VDict(ToDict(r))) else Encoded(VStr(show(p)))
    case Plain(v) => Encoded(Stringify(v))
  }

  /** `StandardResponse(data={k: v}, status="success", message=None)` */
  function Wrapped(k: string, v: Value, rule: MessageRule): Option<StandardResponse>
  {
    Construct(ResponseArgs(Some(VDict([Entry(k, v)])), Some(VStr("success")), Some(VNone)), rule)
  }

  /** What a cache hit returns: `json.loads` of the stored bytes, then, for a function declared to
      return `StandardResponse`, a response rebuilt from a dict, a string wrapped as
      `{"response": s}`, and anything else wrapped as `{"cached_value": v}`. `None` stands for an
      exception raised while doing so (bytes that are not JSON, a constructor that rejects its
      arguments). */
  function Decode(payload: Payload, shape: Shape, rule: MessageRule): (r: Option<Produced>)
    ensures payload.Blank? || payload.Garbled? ==> r.None?
    ensures shape == AnyShape && payload.Encoded? ==> r == Some(Plain(payload.json))
    ensures shape == ResponseShape ==> r.None? || r.value.Response?
  {
    match payload
    case Blank => None
    case Garbled => None
    case Encoded(v) =>
      if shape == AnyShape then Some(Plain(v))
      else
        var built :=
          match v
          case VDict(d) => FromDict(d, rule)
          case VStr(_) => Wrapped("response", v, rule)
          case _ => Wrapped("cached_value", v, rule);
        if built.Some? then Some(Response(built.value)) else None
  }

  /** Round trip of a response whose dict JSON can encode: the hit gives back the same data,
      status and message. */
  lemma ResponseRoundTrip(r: StandardResponse, show: Produced -> string)
    requires IsJson(VDict(ToDict(r)))
    ensures Decode(Encode(Response(r), show), ResponseShape, NoneAllowed) == Some(Response(r))
  {
    FromToDict(r);
  }

  /** A response whose dict JSON cannot encode (a `datetime` inside, say) is stored as its
      `str()`, and a hit returns that string wrapped as `{"response": ...}`, status "success",
      no message. */
  lemma ResponseStoredAsString(r: StandardResponse, show: Produced -> string)
    requires !IsJson(VDict(ToDict(r)))
    ensures Encode(Response(r), show) == Encoded(VStr(show(Response(r))))
    ensures Decode(Encode(Response(r), show), ResponseShape, NoneAllowed)
         == Some(Response(StandardResponse(Some([Entry("response", VStr(show(Response(r))))]), "success", None)))
  {
  }

  /** A plain value comes back with each opaque object replaced by its `str()`, and unchanged
      when JSON can encode all of it. */
  lemma PlainRoundTrip(v: Value, show: Produced -> string, rule: MessageRule)
    ensures Decode(Encode(Plain(v), show), AnyShape, rule) == Some(Plain(Stringify(v)))
    ensures IsJson(v) ==> Decode(Encode(Plain(v), show), AnyShape, rule) == Some(Plain(v))
  {
  }

  /** As declared, `message: str` rejects the explicit `message=None` of the string and
      other-value branches, so such a hit raises inside the wrapper instead of returning. */
  lemma WrappedHitRejectedAsDeclared(v: Value)
    requires !v.VDict?
    ensures Decode(Encoded(v), ResponseShape, AsDeclared).None?
  {
  }

  /** With `None` accepted as "no message", a hit on any JSON value other than an object or a
      string returns it wrapped as `{"cached_value": ...}`, status "success", no message. */
  lemma CachedValueHitServed(v: Value)
    requires !v.VDict? && !v.VStr?
    ensures Decode(Encoded(v), ResponseShape, NoneAllowed)
         == Some(Response(StandardResponse(Some([Entry("cached_value", v)]), "success", None)))
  {
  }

  /** With `None` accepted as "no message", the string branch returns the string wrapped. */
  lemma StringHitServed(s: string)
    ensures Decode(Encoded(VStr(s)), ResponseShape, NoneAllowed)
         == Some(Response(StandardResponse(Some([Entry("response", VStr(s))]), "success", None)))
  {
  }

  // ---------------- The wrapper ----------------

  /** No usable value under `key`: absent, or present but empty (falsy). */
  predicate Miss(store: Store, key: string) {
    key !in store || !store[key].payload.NonEmpty()
  }

  /** One call of the wrapper around a producer, for a key and an effective time to live:
      GET; on a non-empty value, decode and return it; otherwise run the producer, SETEX its
      encoding and return its result. Any exception on the way (a failing command, bytes that do
      not decode, the producer's own exception) is caught and answered with a fresh run of the
      producer outside the handler, whose outcome (value or exception) is final and is not
      written. */
  function CachedCall(store: Store, faults: Faults, key: string, ttl: int, shape: Shape,
                      produce: nat -> Outcome, show: Produced -> string, rule: MessageRule): (c: Call)
    // the producer runs at most twice, and a raised exception is always the producer's own
    ensures c.calls <= 2
    ensures c.calls > 0 ==> c.outcome == produce(c.calls - 1)
    ensures c.calls == 0 ==> c.outcome.Returned?
    // a hit: the producer is not called and nothing is written
    ensures c.calls == 0 <==> (faults.get.None? && !Miss(store, key)
                               && Decode(store[key].payload, shape, rule).Some?)
    ensures c.calls == 0 ==> c.store == store && c.outcome == Returned(Decode(store[key].payload, shape, rule).value)
    // the only write is the producer's first result under `key`
    ensures c.store != store ==> c.calls == 1 && produce(0).Returned? && c.outcome == produce(0)
                                 && c.store == store[key := CacheEntry(Encode(produce(0).value, show), ttl)]
    // a miss that the producer and SETEX both survive fills the entry
    ensures faults.get.None? && Miss(store, key) && produce(0).Returned? && faults.setex.None? && ttl > 0
            ==> c.calls == 1 && c.store == store[key := CacheEntry(Encode(produce(0).value, show), ttl)]
    // a miss whose producer raises, or whose SETEX fails, runs the producer a second time
    ensures faults.get.None? && Miss(store, key) && (produce(0).Raised? || faults.setex.Some? || ttl <= 0)
            ==> c.calls == 2 && c.store == store
    // a failing GET degrades to an uncached call
    ensures faults.get.Some? ==> c.calls == 1 && c.store == store
    // an entry that does not decode is answered by one uncached run and stays in place
    ensures faults.get.None? && !Miss(store, key) && Decode(store[key].payload, shape, rule).None?
            ==> c.calls == 1 && c.outcome == produce(0) && c.store == store
  {
    match Get(store, faults.get, key)
    case Err(_) => Call(store, produce(0), 1)
    case Ok(found) =>
      if found.Some? && found.value.NonEmpty() then
        match Decode(found.value, shape, rule)
        case Some(v) => Call(store, Returned(v), 0)
        case None => Call(store, produce(0), 1)
      else
        match produce(0)
        case Raised(_) => Call(store, produce(1), 2)
        case Returned(p) =>
          match Setex(store, faults.setex, key, ttl, Encode(p, show))
          case Err(_) => Call(store, produce(1), 2)
          case Ok(filled) => Call(filled, Returned(p), 1)
  }

  /** The arguments of `@cache(ttl=..., prefix=...)`. */
  datatype CacheConfig = CacheConfig(ttl: Option<int>, prefix: Option<string>)

  /** `ttl or REDIS_TTL`: a missing or zero ttl means the default. */
  function EffectiveTtl(ttl: Option<int>): (t: int)
    ensures t != 0
    ensures ttl.Some? && ttl.value != 0 ==> t == ttl.value
    ensures ttl.None? || ttl.value == 0 ==> t == RedisTtl
  {
    if ttl.None? || ttl.value == 0 then RedisTtl else ttl.value
  }

  /** `prefix or func.__qualname__` */
  function FuncPrefix(prefix: Option<string>, qualname: string): string
  {
    if prefix.None? || prefix.value == "" then qualname else prefix.value
  }

  /** A call of a function decorated with `@cache(...)`. Whatever it writes is stored under a key
      that starts with the function's prefix. `invalidate_cache(prefix)` finds such a key only when
      the call had a scalar argument: without one the key is the bare prefix, which the pattern
      `prefix:*` does not match. A keyword argument named `prefix` collides with the key builder's
      own parameter: the `TypeError` is raised before the `try`, so it reaches the caller. */
  function CachedFunctionCall(cfg: CacheConfig, qualname: string, shape: Shape, args: seq<Arg>, kwargs: seq<Kwarg>,
                              store: Store, faults: Faults, produce: nat -> Outcome, show: Produced -> string,
                              rule: MessageRule): (c: Call)
    requires DistinctNames(kwargs)
    ensures forall k :: k in c.store && (k !in store || c.store[k] != store[k]) ==>
              StartsWith(k, FuncPrefix(cfg.prefix, qualname)) && c.store[k].ttl == EffectiveTtl(cfg.ttl)
    ensures c.store.Keys >= store.Keys
    // the clash: nothing runs, nothing is written, and the caller gets the TypeError
    ensures "prefix" in Names(kwargs) ==>
              c.calls == 0 && c.store == store && c.outcome.Raised? && c.outcome.exc.kind == ArgumentClash
    // otherwise a raised exception is always the producer's own
    ensures "prefix" !in Names(kwargs) && c.outcome.Raised? ==> c.calls > 0 && c.outcome == produce(c.calls - 1)
  {
    if "prefix" in Names(kwargs) then
      Call(store, Raised(Exc(ArgumentClash, "create_cache_key() got multiple values for argument 'prefix'")), 0)
    else
      var key := CreateCacheKey(FuncPrefix(cfg.prefix, qualname), args, kwargs);
      CachedCall(store, faults, key, EffectiveTtl(cfg.ttl), shape, produce, show, rule)
  }

  /** After a call that filled the cache, a second call with the same key and a working GET
      returns the decoded entry without running its producer, and writes nothing. */
  lemma FillThenHit(store: Store, faults: Faults, key: string, ttl: int, shape: Shape,
                    produce: nat -> Outcome, show: Produced -> string, rule: MessageRule,
                    faults2: Faults, produce2: nat -> Outcome)
    requires CachedCall(store, faults, key, ttl, shape, produce, show, rule).store != store
    requires faults2.get.None?
    requires Decode(Encode(produce(0).value, show), shape, rule).Some?
    ensures var filled := CachedCall(store, faults, key, ttl, shape, produce, show, rule).store;
            var second := CachedCall(filled, faults2, key, ttl, shape, produce2, show, rule);
            second.calls == 0 && second.store == filled
            && second.outcome == Returned(Decode(Encode(produce(0).value, show), shape, rule).value)
  {
  }

  /** Fill then hit for a response JSON can encode: the second call returns the very response
      the first call's producer gave. */
  lemma ResponseFillThenHit(store: Store, faults: Faults, key: string, ttl: int, r: StandardResponse,
                            produce: nat -> Outcome, show: Produced -> string, produce2: nat -> Outcome)
    requires produce(0) == Returned(Response(r)) && IsJson(VDict(ToDict(r)))
    requires faults.get.None? && faults.setex.None? && ttl > 0 && Miss(store, key)
    ensures var first := CachedCall(store, faults, key, ttl, ResponseShape, produce, show, NoneAllowed);
            var second := CachedCall(first.store, faults, key, ttl, ResponseShape, produce2, show, NoneAllowed);
            first.outcome == Returned(Response(r)) && first.calls == 1
            && second.outcome == Returned(Response(r)) && second.calls == 0
  {
    var first := CachedCall(store, faults, key, ttl, ResponseShape, produce, show, NoneAllowed);
    ResponseRoundTrip(r, show);
    assert first.store[key].payload == Encode(Response(r), show);
  }

  /** Under the declared field type, a string in the cache is never served: the hit raises while
      rebuilding the response, and the handler runs the producer instead. */
  lemma StringHitRunsProducerAsDeclared(store: Store, faults: Faults, key: string, ttl: int,
                                        s: string, produce: nat -> Outcome, show: Produced -> string)
    requires faults.get.None? && key in store && store[key].payload == Encoded(VStr(s))
    ensures var c := CachedCall(store, faults, key, ttl, ResponseShape, produce, show, AsDeclared);
            c.calls == 1 && c.outcome == produce(0) && c.store == store
  {
    WrappedHitRejectedAsDeclared(VStr(s));
  }

  /** With `None` accepted as "no message", the same hit returns the string wrapped and does not
      run the producer. */
  lemma StringHitServedCall(store: Store, faults: Faults, key: string, ttl: int,
                            s: string, produce: nat -> Outcome, show: Produced -> string)
    requires faults.get.None? && key in store && store[key].payload == Encoded(VStr(s))
    ensures var c := CachedCall(store, faults, key, ttl, ResponseShape, produce, show, NoneAllowed);
            c.calls == 0 && c.store == store
            && c.outcome == Returned(Response(StandardResponse(Some([Entry("response", VStr(s))]), "success", None)))
  {
    StringHitServed(s);
  }

  /** A filled entry keeps answering hits while its time to live lasts, and stops once it has run out. */
  lemma HitsUntilExpiry(store: Store, faults: Faults, key: string, ttl: int, shape: Shape,
                        produce: nat -> Outcome, show: Produced -> string, rule: MessageRule,
                        elapsed: nat, produce2: nat -> Outcome)
    requires CachedCall(store, faults, key, ttl, shape, produce, show, rule).store != store
    requires Decode(Encode(produce(0).value, show), shape, rule).Some?
    ensures var later := Expire(CachedCall(store, faults, key, ttl, shape, produce, show, rule).store, elapsed);
            (CachedCall(later, NoFaults, key, ttl, shape, produce2, show, rule).calls == 0) <==> elapsed < ttl
  {
  }

  // ---------------- Invalidation ----------------

  /** The store after `invalidate_cache`, and whether a DEL was sent. */
  datatype Invalidation = Invalidation(store: Store, deleteIssued: bool)

  /** `invalidate_cache(prefix, pattern)`: KEYS `prefix:pattern`, then DEL of the keys found if
      there are any. A failing command is logged and swallowed; the function never raises. */
  function Invalidate(store: Store, faults: Faults, prefix: string, pattern: string): (r: Invalidation)
    // only deletes, and only matching keys
    ensures r.store.Keys <= store.Keys
    ensures forall k :: k in r.store ==> r.store[k] == store[k]
    ensures forall k :: k in store && !Matches(prefix + ":" + pattern, k) ==> k in r.store
    // with working commands, every matching key is gone
    ensures faults.keys.None? && faults.delete.None?
            ==> forall k :: k in store ==> (k in r.store <==> !Matches(prefix + ":" + pattern, k))
    // a DEL is sent exactly when KEYS worked and found something
    ensures r.deleteIssued <==> faults.keys.None? && exists k :: k in store && Matches(prefix + ":" + pattern, k)
    // a swallowed failure leaves the store as it was
    ensures faults.keys.Some? || (r.deleteIssued && faults.delete.Some?) ==> r.store == store
  {
    match Backend.Keys(store, faults.keys, prefix + ":" + pattern)
    case Err(_) => Invalidation(store, false)
    case Ok(found) =>
      if found == {} then Invalidation(store, false)
      else
        match Delete(store, faults.delete, found)
        case Err(_) => Invalidation(store, true)
        case Ok(rest) => Invalidation(rest, true)
  }

  /** `invalidate_cache(prefix, id)` for an id without `*` removes the one key `prefix:id` and
      nothing else. */
  lemma InvalidateOne(store: Store, faults: Faults, prefix: string, id: string)
    requires '*' !in prefix && '*' !in id
    requires faults.keys.None? && faults.delete.None?
    ensures Invalidate(store, faults, prefix, id).store == store - {prefix + ":" + id}
  {
    var r := Invalidate(store, faults, prefix, id);
    var pat := prefix + ":" + id;
    assert '*' !in pat by {
      assert forall i :: 0 <= i < |pat| ==> pat[i] == (if i < |prefix| then prefix[i] else if i == |prefix| then ':' else id[i - |prefix| - 1]);
    }
    forall k | k in store ensures k in r.store <==> k != pat {
      LiteralMatchesItself(pat, k);
    }
  }

  /** After `invalidate_cache(prefix)` with working commands, a call for any key under the
      prefix misses and runs its producer, while entries under other prefixes stay. */
  lemma InvalidateAllThenMiss(store: Store, prefix: string, key: string, ttl: int, shape: Shape,
                              produce: nat -> Outcome, show: Produced -> string, rule: MessageRule)
    requires '*' !in prefix
    ensures var after := Invalidate(store, NoFaults, prefix, "*").store;
            StartsWith(key, prefix + ":") ==> CachedCall(after, NoFaults, key, ttl, shape, produce, show, rule).calls >= 1
    ensures var after := Invalidate(store, NoFaults, prefix, "*").store;
            forall k :: k in store && !StartsWith(k, prefix + ":") ==> k in after && after[k] == store[k]
  {
    var after := Invalidate(store, NoFaults, prefix, "*").store;
    assert '*' !in prefix + ":" by {
      assert forall i :: 0 <= i < |prefix + ":"| ==> (prefix + ":")[i] == (if i < |prefix| then prefix[i] else ':');
    }
    assert prefix + ":*" == (prefix + ":") + "*";
    forall k | k in store ensures Matches(prefix + ":*", k) <==> StartsWith(k, prefix + ":") {
      LiteralThenStar(prefix + ":", k);
    }
    LiteralThenStar(prefix + ":", key);
  }

  // ---------------- Health probe ----------------

  const ProbeKey := "health:check"
  const AsyncProbeKey := "health:check:async"

  /** `json.dumps({"status": "ok", "timestamp": "now"})` */
  const ProbeValue := VDict([Entry("status", VStr("ok")), Entry("timestamp", VStr("now"))])

  /** What a probe reports, and the store it leaves. */
  datatype Probe = Probe(store: Store, healthy: bool, message: string)

  /** The message for a caught exception. */
  function FaultMessage(f: Fault): string
  {
    match f
    case RedisError(m) => "Redis error: " + m
    case OtherError(m) => "Unexpected error: " + m
  }

  /** `cache_health_check` (sentinel `health:check`) and `async_cache_health_check`
      (`health:check:async`): SETEX the sentinel for 10 seconds, GET it back. `lost` says the
      sentinel vanished between the two commands (evicted, or deleted by another client). */
  function HealthProbe(store: Store, faults: Faults, sentinel: string, lost: bool): (p: Probe)
    ensures p.healthy <==> faults.setex.None? && faults.get.None? && !lost
    ensures p.healthy ==> p.message == "Cache is healthy"
    ensures faults.setex.None? && faults.get.None? && lost ==> p.message == "Cache set succeeded but get failed"
    ensures faults.setex.Some? ==> p.message == FaultMessage(faults.setex.value)
    ensures faults.setex.None? && faults.get.Some? ==> p.message == FaultMessage(faults.get.value)
    ensures faults.setex.None? && !lost ==> p.store == store[sentinel := CacheEntry(Encoded(ProbeValue), 10)]
  {
    match Setex(store, faults.setex, sentinel, 10, Encoded(ProbeValue))
    case Err(f) => Probe(store, false, FaultMessage(f))
    case Ok(written) =>
      var now := if lost then written - {sentinel} else written;
      match Get(now, faults.get, sentinel)
      case Err(f) => Probe(now, false, FaultMessage(f))
      case Ok(got) =>
        if got.Some? && got.value.NonEmpty() then Probe(now, true, "Cache is healthy")
        else Probe(now, false, "Cache set succeeded but get failed")
  }
}

=== FILE: cache_key.dfy ===
/** `create_cache_key`: the cache key of a call, built from a prefix, the call's scalar
    positional arguments in order, and its scalar keyword arguments sorted by name. */
module CacheKey {
  import opened Wrappers
  import opened Text

  /** A call argument. `Float` carries its `str()` (Python's float rendering is not modelled);
      `Other` is any non-scalar (an object such as `self`, a list, a dict, `None`). */
  datatype Arg = Str(s: string) | Int(i: int) | Float(text: string) | Bool(b: bool) | Other {
    /** `isinstance(a, (str, int, float, bool))` */
    predicate IsScalar() {
      !Other?
    }
  }

  datatype Kwarg = Kwarg(name: string, arg: Arg)

  /** `str(a)` for a scalar argument. */
  function ArgText(a: Arg): string
    requires a.IsScalar()
  {
    match a
    case Str(s) => s
    case Int(i) => Decimal(i)
    case Float(text) => text
    case Bool(b) => if b then "True" else "False"
  }

  /** The scalar positional arguments, in call order. */
  function ScalarArgs(args: seq<Arg>): (r: seq<Arg>)
    ensures forall i :: 0 <= i < |r| ==> r[i].IsScalar()
  {
    if |args| == 0 then []
    else if args[0].IsScalar() then [args[0]] + ScalarArgs(args[1..])
    else ScalarArgs(args[1..])
  }

  /** The scalar keyword arguments, in the order given. */
  function ScalarKwargs(kws: seq<Kwarg>): (r: seq<Kwarg>)
    ensures forall i :: 0 <= i < |r| ==> r[i].arg.IsScalar()
    ensures forall k :: k in r ==> k in kws
  {
    if |kws| == 0 then []
    else if kws[0].arg.IsScalar() then [kws[0]] + ScalarKwargs(kws[1..])
    else ScalarKwargs(kws[1..])
  }

  function PositionalParts(args: seq<Arg>): seq<string>
  {
    var s := ScalarArgs(args);
    seq(|s|, i requires 0 <= i < |s| => ArgText(s[i]))
  }

  /** `f"{k}:{v}"` for each scalar keyword argument. */
  function KeywordParts(kws: seq<Kwarg>): seq<string>
  {
    var s := ScalarKwargs(kws);
    seq(|s|, i requires 0 <= i < |s| => s[i].name + ":" + ArgText(s[i].arg))
  }

  /** Keyword names are unique, as in every Python call. */
  predicate DistinctNames(kws: seq<Kwarg>) {
    forall i, j :: 0 <= i < j < |kws| ==> kws[i].name != kws[j].name
  }

  predicate StrictlySorted(kws: seq<Kwarg>) {
    forall i, j :: 0 <= i < j < |kws| ==> LexLess(kws[i].name, kws[j].name)
  }

  function Names(kws: seq<Kwarg>): set<string> {
    set k | k in kws :: k.name
  }

  function Insert(k: Kwarg, s: seq<Kwarg>): (r: seq<Kwarg>)
    ensures multiset(r) == multiset(s) + multiset{k}
  {
    if |s| == 0 then [k]
    else if LexLess(k.name, s[0].name) then [k] + s
    else
      assert s == [s[0]] + s[1..];
      [s[0]] + Insert(k, s[1..])
  }

  /** Sequences with the same elements have the same names. */
  lemma SameNames(a: seq<Kwarg>, b: seq<Kwarg>)
    requires multiset(a) == multiset(b)
    ensures Names(a) == Names(b)
  {
    assert forall x :: x in a <==> x in multiset(a);
    assert forall x :: x in b <==> x in multiset(b);
  }

  /** Inserting a new name into a strictly sorted sequence keeps it strictly sorted. */
  lemma {:induction false} InsertSorted(k: Kwarg, s: seq<Kwarg>)
    requires StrictlySorted(s) && k.name !in Names(s)
    ensures StrictlySorted(Insert(k, s))
    decreases |s|
  {
    if |s| == 0 {
    } else if LexLess(k.name, s[0].name) {
      forall j | 0 < j < |s| ensures LexLess(k.name, s[j].name) {
        LexLessTransitive(k.name, s[0].name, s[j].name);
      }
    } else {
      assert s[0] in s;
      LexLessTotal(k.name, s[0].name);
      assert k.name !in Names(s[1..]) by {
        assert forall x :: x in s[1..] ==> x in s;
      }
      InsertSorted(k, s[1..]);
      var rest := Insert(k, s[1..]);
      forall x | x in rest ensures LexLess(s[0].name, x.name) {
        assert x in multiset(rest);
        if x != k {
          assert x in multiset(s[1..]);
          var j :| 0 <= j < |s[1..]| && s[1..][j] == x;
          assert s[j + 1] == x;
        }
      }
    }
  }

  /** `sorted(kwargs.items())`: the keyword arguments ordered by name. */
  function SortByName(kws: seq<Kwarg>): (r: seq<Kwarg>)
    requires DistinctNames(kws)
    ensures StrictlySorted(r)
    ensures multiset(r) == multiset(kws)
  {
    if |kws| == 0 then []
    else
      assert kws == [kws[0]] + kws[1..];
      var rest := SortByName(kws[1..]);
      assert kws[0].name !in Names(rest) by {
        SameNames(rest, kws[1..]);
      }
      InsertSorted(kws[0], rest);
      Insert(kws[0], rest)
  }

  /** `create_cache_key(prefix, *args, **kwargs)`: the parts joined by `:`. */
  function CreateCacheKey(prefix: string, args: seq<Arg>, kwargs: seq<Kwarg>): (key: string)
    requires DistinctNames(kwargs)
    ensures StartsWith(key, prefix)
  {
    var parts := [prefix] + PositionalParts(args) + KeywordParts(SortByName(kwargs));
    assert parts[0] == prefix;
    Join(parts, ":")
  }

  // ---- Why the key ignores keyword order and non-scalar arguments ----

  /** Two strictly sorted sequences holding the same elements start with the same element. */
  lemma SortedSameHead(x: seq<Kwarg>, y: seq<Kwarg>)
    requires StrictlySorted(x) && StrictlySorted(y)
    requires multiset(x) == multiset(y)
    requires |x| > 0
    ensures |y| > 0 && x[0] == y[0]
  {
    assert x[0] in multiset(y);
    var j :| 0 <= j < |y| && y[j] == x[0];
    assert y[0] in multiset(x);
    var i :| 0 <= i < |x| && x[i] == y[0];
    if j > 0 {
      if i > 0 {
        assert LexLess(x[0].name, y[0].name);
        LexLessAsymmetric(y[0].name, x[0].name);
      } else {
        LexLessIrreflexive(y[0].name);
      }
      assert false;
    }
  }

  /** Two strictly sorted sequences holding the same elements are the same sequence. */
  lemma {:induction false} SortedUnique(x: seq<Kwarg>, y: seq<Kwarg>)
    requires StrictlySorted(x) && StrictlySorted(y)
    requires multiset(x) == multiset(y)
    ensures x == y
    decreases |x|
  {
    if |x| == 0 {
      assert |multiset(y)| == 0;
    } else {
      SortedSameHead(x, y);
      assert x == [x[0]] + x[1..] && y == [y[0]] + y[1..];
      assert multiset(x[1..]) == multiset(x) - multiset{x[0]};
      assert multiset(y[1..]) == multiset(y) - multiset{y[0]};
      SortedUnique(x[1..], y[1..]);
    }
  }

  /** Filtering a strictly sorted sequence keeps it strictly sorted. */
  lemma {:induction false} ScalarKwargsSorted(s: seq<Kwarg>)
    requires StrictlySorted(s)
    ensures StrictlySorted(ScalarKwargs(s))
    decreases |s|
  {
    if |s| > 0 {
      ScalarKwargsSorted(s[1..]);
      var rest := ScalarKwargs(s[1..]);
      forall k | k in rest ensures LexLess(s[0].name, k.name) {
        var j :| 0 <= j < |s[1..]| && s[1..][j] == k;
        assert s[j + 1] == k;
      }
    }
  }

  /** Each element occurs in the filtered sequence as often as in the original, if it is scalar. */
  lemma {:induction false} ScalarKwargsCount(s: seq<Kwarg>, k: Kwarg)
    ensures multiset(ScalarKwargs(s))[k] == if k.arg.IsScalar() then multiset(s)[k] else 0
    decreases |s|
  {
    if |s| > 0 {
      ScalarKwargsCount(s[1..], k);
      assert s == [s[0]] + s[1..];
    }
  }

  lemma ScalarKwargsMultiset(a: seq<Kwarg>, b: seq<Kwarg>)
    requires multiset(a) == multiset(b)
    ensures multiset(ScalarKwargs(a)) == multiset(ScalarKwargs(b))
  {
    forall k ensures multiset(ScalarKwargs(a))[k] == multiset(ScalarKwargs(b))[k] {
      ScalarKwargsCount(a, k);
      ScalarKwargsCount(b, k);
    }
  }

  /** The key depends on nothing but the prefix, the scalar positional arguments in order, and
      the collection of scalar keyword arguments: non-scalar arguments can be added, removed or
      changed, and keyword arguments reordered, without changing it. */
  lemma KeyDependsOnlyOnScalars(prefix: string, a1: seq<Arg>, k1: seq<Kwarg>, a2: seq<Arg>, k2: seq<Kwarg>)
    requires DistinctNames(k1) && DistinctNames(k2)
    requires ScalarArgs(a1) == ScalarArgs(a2)
    requires multiset(ScalarKwargs(k1)) == multiset(ScalarKwargs(k2))
    ensures CreateCacheKey(prefix, a1, k1) == CreateCacheKey(prefix, a2, k2)
  {
    var s1, s2 := SortByName(k1), SortByName(k2);
    ScalarKwargsSorted(s1);
    ScalarKwargsSorted(s2);
    ScalarKwargsMultiset(s1, k1);
    ScalarKwargsMultiset(s2, k2);
    SortedUnique(ScalarKwargs(s1), ScalarKwargs(s2));
  }

  /** Reordering keyword arguments does not change the key. */
  lemma KeyIgnoresKeywordOrder(prefix: string, args: seq<Arg>, k1: seq<Kwarg>, k2: seq<Kwarg>)
    requires DistinctNames(k1) && DistinctNames(k2)
    requires multiset(k1) == multiset(k2)
    ensures CreateCacheKey(prefix, args, k1) == CreateCacheKey(prefix, args, k2)
  {
    ScalarKwargsMultiset(k1, k2);
    KeyDependsOnlyOnScalars(prefix, args, k1, args, k2);
  }

  /** A method called as `obj.m(s)` with a string `s` and no keyword arguments: the receiver
      is not a scalar, so the key is exactly `prefix:s`. */
  lemma MethodKeyWithOneString(prefix: string, s: string)
    ensures CreateCacheKey(prefix, [Other, Str(s)], []) == prefix + ":" + s
  {
    assert [Other, Str(s)][1..] == [Str(s)];
    assert [Str(s)][1..] == [];
    assert ScalarArgs([Str(s)]) == [Str(s)] + ScalarArgs([]);
    assert ScalarArgs([Other, Str(s)]) == ScalarArgs([Str(s)]);
    assert PositionalParts([Other, Str(s)]) == [s];
    assert KeywordParts(SortByName([])) == [];
    assert [prefix] + [s] + [] == [prefix, s];
    assert [prefix, s][1..] == [s];
    assert Join([prefix, s], ":") == prefix + ":" + Join([s], ":");
    assert CreateCacheKey(prefix, [Other, Str(s)], []) == Join([prefix, s], ":");
  }

  /** `str()` is not injective: the int `1` and the string `"1"` give the same key. */
  lemma IntAndStringCollide(prefix: string)
    ensures CreateCacheKey(prefix, [Int(1)], []) == CreateCacheKey(prefix, [Str("1")], [])
  {
    assert [Int(1)][1..] == [] && [Str("1")][1..] == [];
    assert ScalarArgs([Int(1)]) == [Int(1)];
    assert ScalarArgs([Str("1")]) == [Str("1")];
    assert Decimal(1) == "1";
    assert PositionalParts([Int(1)]) == ["1"] == PositionalParts([Str("1")]);
  }
}

=== FILE: errors.dfy ===
/** The exceptions the service raises, with the HTTP status their handlers answer with. */
module Errors {
  import opened Wrappers

  datatype ExcKind =
    | NotFound            // NotFoundException
    | Unexpected          // UnexpectedException
    | Database            // DatabaseException
    | DatabaseIntegrity   // DatabaseIntegrityException
    | AttributeMissing    // a Python AttributeError, not an HTTP exception
    | ArgumentClash       // a Python TypeError from a call's arguments, not an HTTP exception

  /** A raised exception and its `detail` (or message). */
  datatype Exc = Exc(kind: ExcKind, detail: string)

  /** The `status_code` an exception carries; `None` for exceptions that are not HTTP exceptions. */
  function StatusCode(k: ExcKind): (code: Option<int>)
    ensures code.Some? <==> k !in {AttributeMissing, ArgumentClash}
    ensures k == NotFound ==> code == Some(404)
    ensures k in {Unexpected, Database, DatabaseIntegrity} ==> code == Some(500)
  {
    match k
    case NotFound => Some(404)
    case Unexpected => Some(500)
    case Database => Some(500)
    case DatabaseIntegrity => Some(500)
    case AttributeMissing => None
    case ArgumentClash => None
  }
}

=== FILE: glob.dfy ===
/** The glob patterns of the Redis `KEYS` command, reduced to `*` (any run of characters);
    every other character matches only itself. */
module Glob {
  import opened Text

  predicate Matches(pattern: string, s: string)
    decreases |pattern| + |s|
  {
    if |pattern| == 0 then |s| == 0
    else if pattern[0] == '*' then Matches(pattern[1..], s) || (|s| > 0 && Matches(pattern, s[1..]))
    else |s| > 0 && s[0] == pattern[0] && Matches(pattern[1..], s[1..])
  }

  /** A pattern without `*` matches exactly the string it spells. */
  lemma {:induction false} LiteralMatchesItself(pattern: string, s: string)
    requires '*' !in pattern
    ensures Matches(pattern, s) <==> s == pattern
    decreases |pattern|
  {
    if |pattern| > 0 && |s| > 0 {
      assert '*' !in pattern[1..] by {
        forall i | 0 <= i < |pattern[1..]| ensures pattern[1..][i] != '*' {
          assert pattern[1..][i] == pattern[i + 1];
        }
      }
      LiteralMatchesItself(pattern[1..], s[1..]);
      assert s == [s[0]] + s[1..] && pattern == [pattern[0]] + pattern[1..];
    }
  }

  /** `*` alone matches every string. */
  lemma {:induction false} StarMatchesAll(s: string)
    ensures Matches("*", s)
    decreases |s|
  {
    if |s| > 0 {
      StarMatchesAll(s[1..]);
    }
  }

  /** `p*`, for a literal `p`, matches exactly the strings that start with `p`. */
  lemma {:induction false} LiteralThenStar(p: string, s: string)
    requires '*' !in p
    ensures Matches(p + "*", s) <==> StartsWith(s, p)
    decreases |p|
  {
    if |p| == 0 {
      assert p + "*" == "*";
      StarMatchesAll(s);
    } else {
      assert (p + "*")[1..] == p[1..] + "*";
      assert '*' !in p[1..] by {
        forall i | 0 <= i < |p[1..]| ensures p[1..][i] != '*' {
          assert p[1..][i] == p[i + 1];
        }
      }
      if |s| > 0 {
        LiteralThenStar(p[1..], s[1..]);
        assert StartsWith(s, p) <==> s[0] == p[0] && StartsWith(s[1..], p[1..]) by {
          if StartsWith(s, p) {
            assert s[1..][..|p[1..]|] == s[..|p|][1..];
          }
          if s[0] == p[0] && StartsWith(s[1..], p[1..]) {
            assert s[..|p|] == [s[0]] + s[1..][..|p| - 1];
          }
        }
      }
    }
  }
}

=== FILE: health.dfy ===
/** The health endpoints: per-dependency checks of the database and the cache, the overall status
    derived from them, and the readiness and liveness probes. Timings and timestamps are not
    modelled; the database's answer to `SELECT 1` and the cache probe's answer are parameters. */
module Health {
  import opened Wrappers
  import opened Values
  import opened Backend
  import opened Cache

  datatype HealthStatus = Healthy | Unhealthy | Degraded

  /** `DependencyHealth`, without its response time and check time. */
  datatype DependencyHealth = DependencyHealth(name: string, status: HealthStatus, details: Option<seq<Entry>>, error: Option<string>)

  /** `check_database_health`: `selectError` is the text of the exception `SELECT 1` raised, if any. */
  function CheckDatabase(selectError: Option<string>): (d: DependencyHealth)
    ensures d.name == "database" && d.details.None?
    ensures d.status == Healthy <==> selectError.None?
    ensures d.status != Degraded
    ensures d.error == selectError
  {
    if selectError.None? then DependencyHealth("database", Healthy, None, None)
    else DependencyHealth("database", Unhealthy, None, selectError)
  }

  /** `check_redis_cache_health`: `probe` is the pair `async_cache_health_check()` returned, or
      the text of the exception it raised. */
  function CheckRedisCache(probe: Result<(bool, string), string>): (d: DependencyHealth)
    ensures d.name == "redis_cache"
    ensures d.status == Healthy <==> probe.Ok? && probe.value.0
    ensures d.status != Degraded
    // the message goes to `details` when healthy and to `error` otherwise
    ensures d.details.Some? <==> d.status == Healthy
    ensures d.error.Some? <==> d.status == Unhealthy
    ensures d.status == Healthy ==> d.details == Some([Entry("message", VStr(probe.value.1))])
    ensures d.status == Unhealthy ==> d.error == Some(if probe.Ok? then probe.value.1 else probe.error)
  {
    match probe
    case Ok((healthy, message)) =>
      if healthy then DependencyHealth("redis_cache", Healthy, Some([Entry("message", VStr(message))]), None)
      else DependencyHealth("redis_cache", Unhealthy, None, Some(message))
    case Err(text) => DependencyHealth("redis_cache", Unhealthy, None, Some(text))
  }

  /** `any(dep.status == status for dep in deps)` */
  predicate AnyWith(deps: seq<DependencyHealth>, status: HealthStatus) {
    |deps| > 0 && (deps[0].status == status || AnyWith(deps[1..], status))
  }

  lemma {:induction false} AnyWithMeans(deps: seq<DependencyHealth>, status: HealthStatus)
    ensures AnyWith(deps, status) <==> exists i :: 0 <= i < |deps| && deps[i].status == status
  {
    if |deps| > 0 {
      AnyWithMeans(deps[1..], status);
      if AnyWith(deps[1..], status) {
        var i :| 0 <= i < |deps[1..]| && deps[1..][i].status == status;
        assert deps[i + 1].status == status;
      }
      if exists i :: 0 <= i < |deps| && deps[i].status == status {
        var i :| 0 <= i < |deps| && deps[i].status == status;
        if i > 0 {
          assert deps[1..][i - 1].status == status;
        }
      }
    }
  }

  /** The overall status: unhealthy if any dependency is, else degraded if any is, else healthy. */
  function Overall(deps: seq<DependencyHealth>): (s: HealthStatus)
    ensures s == Unhealthy <==> exists i :: 0 <= i < |deps| && deps[i].status == Unhealthy
    ensures s == Degraded <==> (forall i :: 0 <= i < |deps| ==> deps[i].status != Unhealthy)
                               && exists i :: 0 <= i < |deps| && deps[i].status == Degraded
    ensures s == Healthy <==> forall i :: 0 <= i < |deps| ==> deps[i].status == Healthy
  {
    AnyWithMeans(deps, Unhealthy);
    AnyWithMeans(deps, Degraded);
    if AnyWith(deps, Unhealthy) then Unhealthy
    else if AnyWith(deps, Degraded) then Degraded
    else Healthy
  }

  /** `HealthResponse`, without its timestamp and uptime. */
  datatype HealthResponse = HealthResponse(status: HealthStatus, version: string, dependencies: seq<DependencyHealth>)

  /** An `HTTPException` with its status code and detail. */
  datatype HttpError<D> = HttpError(statusCode: int, detail: D)

  /** `health_check`: both dependencies checked; an unhealthy result is raised as a 503 whose
      detail is the response itself. */
  function HealthCheck(selectError: Option<string>, probe: Result<(bool, string), string>): (r: Result<HealthResponse, HttpError<HealthResponse>>)
    ensures var deps := [CheckDatabase(selectError), CheckRedisCache(probe)];
            r.Ok? ==> r.value.dependencies == deps && r.value.version == "1.0.0"
    ensures r.Err? ==> r.error.statusCode == 503 && r.error.detail.status == Unhealthy
    // only two outcomes are possible: both dependencies healthy, or a 503
    ensures r.Ok? <==> selectError.None? && probe.Ok? && probe.value.0
    ensures r.Ok? ==> r.value.status == Healthy
  {
    var deps := [CheckDatabase(selectError), CheckRedisCache(probe)];
    var response := HealthResponse(Overall(deps), "1.0.0", deps);
    NeverDegraded(selectError, probe);
    assert response.status == Healthy <==> deps[0].status == Healthy && deps[1].status == Healthy;
    if response.status == Unhealthy then Err(HttpError(503, response)) else Ok(response)
  }

  /** Neither checker ever reports a degraded dependency, so the overall status is never degraded. */
  lemma NeverDegraded(selectError: Option<string>, probe: Result<(bool, string), string>)
    ensures Overall([CheckDatabase(selectError), CheckRedisCache(probe)]) != Degraded
  {
    var deps := [CheckDatabase(selectError), CheckRedisCache(probe)];
    assert forall i :: 0 <= i < |deps| ==> deps[i].status != Degraded;
  }

  /** The cache dependency, fed by the asynchronous probe, is healthy exactly when writing and
      reading back the sentinel both work. */
  lemma CacheDependencyFollowsProbe(store: Store, faults: Faults, lost: bool)
    ensures var p := HealthProbe(store, faults, AsyncProbeKey, lost);
            CheckRedisCache(Ok((p.healthy, p.message))).status == Healthy
            <==> faults.setex.None? && faults.get.None? && !lost
    ensures var p := HealthProbe(store, faults, AsyncProbeKey, lost);
            faults.setex.Some? ==> CheckRedisCache(Ok((p.healthy, p.message))).error == Some(FaultMessage(faults.setex.value))
  {
  }

  /** `readiness_check`. */
  function Readiness(selectError: Option<string>): (r: Result<seq<Entry>, HttpError<string>>)
    ensures r.Ok? <==> selectError.None?
    ensures r.Ok? ==> Lookup(r.value, "status") == Some(VStr("ready"))
    ensures r.Err? ==> r.error == HttpError(503, "Service not ready")
  {
    if selectError.None? then Ok([Entry("status", VStr("ready"))]) else Err(HttpError(503, "Service not ready"))
  }

  /** `liveness_check` */
  function Liveness(): (r: seq<Entry>)
    ensures Lookup(r, "status") == Some(VStr("alive")) && |r| == 1
  {
    [Entry("status", VStr("alive"))]
  }

  /** Readiness and the full check agree on the database: whenever the full check passes, the
      service is ready. */
  lemma HealthyImpliesReady(selectError: Option<string>, probe: Result<(bool, string), string>)
    ensures HealthCheck(selectError, probe).Ok? ==> Readiness(selectError).Ok?
  {
  }
}

=== FILE: item_repository.dfy ===
/** `ItemRepositoryImpl`: create, get, update and delete of items, over a table modelled as a map
    from item id to row. Each operation runs under `handle_repo_errors`; `fault` is the exception
    the database raises during the operation, if any (the database itself is outside the model),
    and `now` is the text of the current time, which the clock supplies. */
module ItemRepository {
  import opened Wrappers
  import opened Values
  import opened Text
  import opened Responses
  import opened Errors
  import opened RepoErrors
  import opened ItemRequest

  /** A row of the `item` table. The timestamps are `datetime` objects; each is kept as its `str()`. */
  datatype Item = Item(id: int, name: string, description: string, price: real, createdAt: string, updatedAt: string)

  /** `Item.to_dict()`: the timestamps stay `datetime` objects, which JSON cannot encode. */
  function ItemToDict(item: Item): (d: seq<Entry>)
    ensures Keys(d) == ["item_id", "name", "description", "price", "created_at", "updated_at"]
    ensures Lookup(d, "item_id") == Some(VInt(item.id))
    ensures !IsJson(VDict(d))
  {
    var d := [ Entry("item_id", VInt(item.id)),
               Entry("name", VStr(item.name)),
               Entry("description", VStr(item.description)),
               Entry("price", VFloat(item.price)),
               Entry("created_at", VObject(item.createdAt)),
               Entry("updated_at", VObject(item.updatedAt)) ];
    LookupUnique(d, 0);
    assert !IsJson(d[4].val);
    d
  }

  /** The table, and the id the autoincrement hands out next. */
  datatype Db = Db(items: map<int, Item>, nextId: int) {
    /** Each row sits under its own id, and every id in use is below the next one. */
    predicate Valid() {
      forall id :: id in items ==> items[id].id == id && id < nextId
    }
  }

  /** What a repository response carries as `data`. */
  datatype RepoData = NoData | ItemData(item: Item) | IdText(text: string)

  type Outcome = Handled<Db, RepoData>

  function NotFoundResponse(id: string): RepoResponse<RepoData> {
    RepoResponse("error", "ITEM_NOT_FOUND", "Freelancer item for user " + id + " not found", NoData)
  }

  function InvalidIdResponse(id: string): RepoResponse<RepoData> {
    RepoResponse("error", "INVALID_ID", "Invalid item_id format: " + id + " is not a valid integer", NoData)
  }

  /** Where a write fails. `BeforeFlush`: before any statement reaches the database (the session
      cannot connect, say). `AtFlush`: the INSERT or UPDATE that the commit flushes is sent and
      fails, or the commit itself fails. `AfterCommit`: in the `refresh` that `create_item` and
      `update_item` run once the commit is done, when the write is already durable, beyond the
      reach of the handler's rollback. */
  datatype Stage = BeforeFlush | AtFlush | AfterCommit

  /** A database failure during a write, and where it strikes. */
  datatype WriteFault = WriteFault(fault: RepoFault, stage: Stage)

  /** A failure inside the `try` that guards `int(id)`: a `ValueError` is answered there as an
      invalid id, anything else reaches `handle_repo_errors`. `db` is the table as last committed. */
  function Guarded(db: Db, id: string, fault: RepoFault): Attempt<Db, RepoData> {
    if fault.BadValue? then Completed(db, InvalidIdResponse(id)) else Failed(db, fault)
  }

  /** `create_item(item)`: insert a row with the request's fields under a fresh id. */
  function CreateItem(db: Db, req: ItemCreate, now: string, fault: Option<WriteFault>): (h: Outcome)
    requires db.Valid()
    ensures h.state.Valid()
    ensures h.result.Ok? <==> fault.None?
    ensures fault.Some? ==> h.rolledBack && StatusCode(h.result.error.kind) == Some(500)
    // a failure before the commit leaves the rows as they were
    ensures fault.Some? && fault.value.stage != AfterCommit ==> h.state.items == db.items
    ensures fault.Some? && fault.value.stage == BeforeFlush ==> h.state == db
    // an INSERT that reached the database drew its id from the sequence, which a rollback does
    // not give back: the next create gets the id after it
    ensures fault.Some? && fault.value.stage == AtFlush ==> h.state == db.(nextId := db.nextId + 1)
    // once committed, the row stays, even when `refresh` then fails and the caller sees a 500
    ensures fault.None? || fault.value.stage == AfterCommit ==>
              var id := db.nextId;
              && id !in db.items
              && h.state.items.Keys == db.items.Keys + {id}
              && (forall k :: k in db.items ==> h.state.items[k] == db.items[k])
              && h.state.items[id] == Item(id, req.name, req.description, req.price, now, now)
    ensures fault.None? ==>
              h.result.value == RepoResponse("success", "ITEM_CREATED", "Freelancer item created successfully",
                                             ItemData(h.state.items[db.nextId]))
  {
    var row := Item(db.nextId, req.name, req.description, req.price, now, now);
    var written := Db(db.items[db.nextId := row], db.nextId + 1);
    var attempt :=
      match fault
      case None => Completed(written, RepoResponse("success", "ITEM_CREATED", "Freelancer item created successfully", ItemData(row)))
      case Some(f) =>
        var last := match f.stage
                    case BeforeFlush => db
                    case AtFlush => db.(nextId := db.nextId + 1)
                    case AfterCommit => written;
        Failed(last, f.fault);
    HandleRepoErrors(attempt)
  }

  /** `get_item(id)`: the row under `int(id)`. */
  function GetItem(db: Db, id: string, fault: Option<RepoFault>): (h: Outcome)
    ensures h.state == db
    ensures ParseInt(id).None? ==> h.result == Ok(InvalidIdResponse(id))
    ensures h.result.Err? <==> ParseInt(id).Some? && fault.Some? && !fault.value.BadValue?
    ensures h.result.Ok? && h.result.value.status == "success"
            <==> ParseInt(id).Some? && fault.None? && ParseInt(id).value in db.items
    ensures h.result.Ok? && h.result.value.status == "success"
            ==> h.result.value.errorCode == "ITEM_FOUND" && h.result.value.data == ItemData(db.items[ParseInt(id).value])
    ensures ParseInt(id).Some? && fault.None? && ParseInt(id).value !in db.items
            ==> h.result == Ok(NotFoundResponse(id))
  {
    var attempt :=
      match ParseInt(id)
      case None => Completed(db, InvalidIdResponse(id))
      case Some(n) =>
        if fault.Some? then Guarded(db, id, fault.value)
        else if n in db.items then
          Completed(db, RepoResponse("success", "ITEM_FOUND", "Freelancer item for user " + id + " found", ItemData(db.items[n])))
        else Completed(db, NotFoundResponse(id));
    HandleRepoErrors(attempt)
  }

  /** The row after `setattr` of each request field and the commit, which stamps `updated_at`. */
  function Overwrite(row: Item, req: ItemCreate, now: string): Item {
    row.(name := req.name, description := req.description, price := req.price, updatedAt := now)
  }

  /** The table once the update of row `n` is committed. */
  function Updated(db: Db, n: int, req: ItemCreate, now: string): Db
    requires n in db.items
  {
    Db(db.items[n := Overwrite(db.items[n], req, now)], db.nextId)
  }

  /** `update_item` reaches its commit: the id parses, the row exists, and nothing fails before. */
  predicate Commits(db: Db, id: string, fault: Option<WriteFault>) {
    ParseInt(id).Some? && ParseInt(id).value in db.items && (fault.None? || fault.value.stage == AfterCommit)
  }

  /** `update_item(item, id)`: overwrite the request fields of the row under `int(id)`. A fault
      flagged as after the commit, in a call that finds no row, is raised by the lookup instead. */
  function UpdateItem(db: Db, req: ItemCreate, id: string, now: string, fault: Option<WriteFault>): (h: Outcome)
    requires db.Valid()
    ensures h.state.Valid()
    ensures h.result.Ok? && h.result.value.status == "success"
            <==> ParseInt(id).Some? && fault.None? && ParseInt(id).value in db.items
    // the table changes exactly when the update commits, whatever happens afterwards
    ensures !Commits(db, id, fault) ==> h.state == db
    ensures Commits(db, id, fault) ==>
              var n := ParseInt(id).value;
              && h.state.nextId == db.nextId
              && h.state.items.Keys == db.items.Keys
              && (forall k :: k in db.items && k != n ==> h.state.items[k] == db.items[k])
              && h.state.items[n].id == n && h.state.items[n].createdAt == db.items[n].createdAt
              && h.state.items[n].name == req.name && h.state.items[n].description == req.description
              && h.state.items[n].price == req.price
    ensures h.result.Ok? && h.result.value.status == "success" ==>
              h.result.value == RepoResponse("success", "ITEM_UPDATED", "Freelancer item updated successfully",
                                             ItemData(h.state.items[ParseInt(id).value]))
    ensures ParseInt(id).None? ==> h.result == Ok(InvalidIdResponse(id))
    ensures ParseInt(id).Some? && fault.None? && ParseInt(id).value !in db.items
            ==> h.result == Ok(NotFoundResponse(id))
    // a `ValueError` anywhere in the `try`, `refresh` included, is answered as an invalid id
    ensures ParseInt(id).Some? && fault.Some? && fault.value.fault.BadValue? ==> h.result == Ok(InvalidIdResponse(id))
    ensures h.result.Err? <==> ParseInt(id).Some? && fault.Some? && !fault.value.fault.BadValue?
    ensures h.result.Err? ==> h.rolledBack && StatusCode(h.result.error.kind) == Some(500)
  {
    var attempt :=
      match ParseInt(id)
      case None => Completed(db, InvalidIdResponse(id))
      case Some(n) => UpdateRow(db, req, n, id, now, fault);
    HandleRepoErrors(attempt)
  }

  /** The body of `update_item` once `int(id)` has given `n`. */
  function UpdateRow(db: Db, req: ItemCreate, n: int, id: string, now: string, fault: Option<WriteFault>): (a: Attempt<Db, RepoData>)
    requires db.Valid()
    ensures a.state.Valid()
    ensures a.Completed? && a.response.status == "success" <==> fault.None? && n in db.items
    ensures n in db.items && (fault.None? || fault.value.stage == AfterCommit) ==> a.state == Updated(db, n, req, now)
    ensures !(n in db.items && (fault.None? || fault.value.stage == AfterCommit)) ==> a.state == db
    ensures a.Completed? && a.response.status == "success" ==>
              a.response == RepoResponse("success", "ITEM_UPDATED", "Freelancer item updated successfully",
                                         ItemData(a.state.items[n]))
    ensures fault.None? && n !in db.items ==> a == Completed(db, NotFoundResponse(id))
    ensures fault.Some? && fault.value.fault.BadValue? ==> a.Completed? && a.response == InvalidIdResponse(id)
    ensures a.Failed? <==> fault.Some? && !fault.value.fault.BadValue?
  {
    if fault.Some? then
      Guarded(if fault.value.stage == AfterCommit && n in db.items then Updated(db, n, req, now) else db, id, fault.value.fault)
    else if n in db.items then
      Completed(Updated(db, n, req, now),
                RepoResponse("success", "ITEM_UPDATED", "Freelancer item updated successfully",
                             ItemData(Overwrite(db.items[n], req, now))))
    else Completed(db, NotFoundResponse(id))
  }

  /** `delete_item(id)`: remove the row under `int(id)`; the response carries the id text. The
      commit is its last database step, so every fault comes before it. */
  function DeleteItem(db: Db, id: string, fault: Option<RepoFault>): (h: Outcome)
    requires db.Valid()
    ensures h.state.Valid()
    ensures h.result.Ok? && h.result.value.status == "success"
            <==> ParseInt(id).Some? && fault.None? && ParseInt(id).value in db.items
    ensures !(h.result.Ok? && h.result.value.status == "success") ==> h.state == db
    ensures h.result.Ok? && h.result.value.status == "success" ==>
              && h.state.items == db.items - {ParseInt(id).value}
              && h.state.nextId == db.nextId
              && h.result.value == RepoResponse("success", "ITEM_DELETED", "Freelancer item deleted successfully", IdText(id))
    ensures ParseInt(id).None? ==> h.result == Ok(InvalidIdResponse(id))
    ensures ParseInt(id).Some? && fault.None? && ParseInt(id).value !in db.items
            ==> h.result == Ok(NotFoundResponse(id))
  {
    var attempt :=
      match ParseInt(id)
      case None => Completed(db, InvalidIdResponse(id))
      case Some(n) =>
        if fault.Some? then Guarded(db, id, fault.value)
        else if n in db.items then
          Completed(Db(db.items - {n}, db.nextId),
                    RepoResponse("success", "ITEM_DELETED", "Freelancer item deleted successfully", IdText(id)))
        else Completed(db, NotFoundResponse(id));
    HandleRepoErrors(attempt)
  }

  /** Reading back after a write: a created row is found under its new id, an updated row shows
      the request's fields, and a deleted row is gone. */
  lemma WriteThenRead(db: Db, req: ItemCreate, id: string, now: string)
    requires db.Valid()
    ensures var created := CreateItem(db, req, now, None).state;
            var got := GetItem(created, Decimal(db.nextId), None).result;
            got.Ok? && got.value.data == ItemData(Item(db.nextId, req.name, req.description, req.price, now, now))
    ensures ParseInt(id).Some? && ParseInt(id).value in db.items ==>
              var got := GetItem(UpdateItem(db, req, id, now, None).state, id, None).result;
              got.Ok? && got.value.data.ItemData? && got.value.data.item.name == req.name
              && got.value.data.item.description == req.description && got.value.data.item.price == req.price
    ensures ParseInt(id).Some? && ParseInt(id).value in db.items ==>
              GetItem(DeleteItem(db, id, None).state, id, None).result == Ok(NotFoundResponse(id))
  {
    DecimalRoundTrip(db.nextId);
  }

  /** A create whose INSERT failed at the database leaves a gap: the next create that succeeds
      puts its row under the id after the lost one, and the lost id names no row. */
  lemma FailedInsertSkipsId(db: Db, req: ItemCreate, now: string, f: RepoFault, next: ItemCreate, later: string)
    requires db.Valid()
    ensures var failed := CreateItem(db, req, now, Some(WriteFault(f, AtFlush))).state;
            var h := CreateItem(failed, next, later, None);
            && h.result.Ok? && h.result.value.data.item.id == db.nextId + 1
            && db.nextId !in h.state.items
            && h.state.items.Keys == db.items.Keys + {db.nextId + 1}
  {
  }

  /** Text without whitespace is its own strip. */
  lemma StripWithoutSpace(s: string)
    requires forall i :: 0 <= i < |s| ==> !IsSpace(s[i])
    ensures Strip(s, IsSpace) == s
  {
  }

  lemma ParseFortyTwo()
    ensures ParseInt("42") == Some(42)
  {
    StripWithoutSpace("42");
    assert DigitGroups("42") by { assert GroupStep("42", 0); }
    assert "42"[..1] == "4" && "4"[..0] == "";
    assert DigitsValue("4") == 4;
  }

  lemma ParseZeroFortyTwo()
    ensures ParseInt("042") == Some(42)
  {
    StripWithoutSpace("042");
    assert DigitGroups("042") by { assert GroupStep("042", 0) && GroupStep("042", 1); }
    assert "042"[..2] == "04" && "04"[..1] == "0" && "0"[..0] == "";
    assert DigitsValue("0") == 0;
    assert DigitsValue("04") == 4;
  }

  /** Two spellings of one id reach the same row: `"042"` and `"42"` both parse to 42. */
  lemma SpellingsShareRow()
    ensures ParseInt("042") == ParseInt("42") == Some(42)
  {
    ParseFortyTwo();
    ParseZeroFortyTwo();
  }
}

=== FILE: item_request.dfy ===
/** `ItemCreate`, the request body for creating or updating an item, with its field constraints:
    strings are stripped of surrounding whitespace before their lengths are checked, `name` holds
    1..50 characters, `description` 1..500, `price` is a number greater than zero, and no other
    field is allowed. */
module ItemRequest {
  import opened Wrappers
  import opened Values
  import opened Text

  const NameMax := 50
  const DescriptionMax := 500

  /** A validated request. */
  datatype ItemCreate = ItemCreate(name: string, description: string, price: real)

  datatype Problem = NotAnObject | Missing | WrongType | TooShort | TooLong | NotPositive | ExtraForbidden

  /** One validation error: the offending field (empty for the body itself) and what is wrong. */
  datatype FieldError = FieldError(field: string, problem: Problem)

  const Allowed: set<string> := {"name", "description", "price"}

  /** A string field after `str_strip_whitespace`, which drops Unicode whitespace at both ends,
      with its length bounds. */
  function StrField(body: seq<Entry>, field: string, max: nat): (r: Result<string, Problem>)
    requires max >= 1
    ensures r.Ok? ==> 1 <= |r.value| <= max
    ensures r.Ok? <==> Lookup(body, field).Some? && Lookup(body, field).value.VStr?
                       && 1 <= |Strip(Lookup(body, field).value.s, IsWhiteSpace)| <= max
    ensures r.Ok? ==> r.value == Strip(Lookup(body, field).value.s, IsWhiteSpace)
  {
    match Lookup(body, field)
    case None => Err(Missing)
    case Some(VStr(s)) =>
      var t := Strip(s, IsWhiteSpace);
      if |t| < 1 then Err(TooShort) else if |t| > max then Err(TooLong) else Ok(t)
    case Some(_) => Err(WrongType)
  }

  /** `price: float = Field(gt=0)`: an int or a float, strictly positive. */
  function PriceField(body: seq<Entry>): (r: Result<real, Problem>)
    ensures r.Ok? ==> r.value > 0.0
    ensures r.Ok? <==> Lookup(body, "price").Some? && match Lookup(body, "price").value
                                                    case VFloat(f) => f > 0.0
                                                    case VInt(i) => i > 0
                                                    case _ => false
    ensures r.Ok? && Lookup(body, "price").value.VFloat? ==> r.value == Lookup(body, "price").value.f
    ensures r.Ok? && Lookup(body, "price").value.VInt? ==> r.value == Lookup(body, "price").value.i as real
  {
    match Lookup(body, "price")
    case None => Err(Missing)
    case Some(VFloat(f)) => if f > 0.0 then Ok(f) else Err(NotPositive)
    case Some(VInt(i)) => if i > 0 then Ok(i as real) else Err(NotPositive)
    case Some(_) => Err(WrongType)
  }

  function ErrorOf<T>(field: string, r: Result<T, Problem>): seq<FieldError> {
    if r.Err? then [FieldError(field, r.error)] else []
  }

  /** The keys that are not fields, each reported once per occurrence, in body order. */
  function Extras(body: seq<Entry>): (errs: seq<FieldError>)
    ensures forall e :: e in errs ==> e.problem == ExtraForbidden && e.field !in Allowed
    ensures forall k :: k in Keys(body) && k !in Allowed ==> FieldError(k, ExtraForbidden) in errs
    ensures errs == [] <==> forall k :: k in Keys(body) ==> k in Allowed
  {
    if |body| == 0 then []
    else
      var rest := Extras(body[1..]);
      assert Keys(body) == [body[0].key] + Keys(body[1..]);
      if body[0].key in Allowed then rest else [FieldError(body[0].key, ExtraForbidden)] + rest
  }

  /** `ItemCreate.model_validate(body)`: the validated request, or every error found. */
  function Validate(body: Value): (r: Result<ItemCreate, seq<FieldError>>)
    ensures r.Err? ==> |r.error| > 0
    // the accepted value fits the item table's `String(50)` and `String(500)` columns
    ensures r.Ok? ==> 1 <= |r.value.name| <= NameMax && 1 <= |r.value.description| <= DescriptionMax
                      && r.value.price > 0.0
    ensures r.Ok? ==> body.VDict? && forall k :: k in Keys(body.entries) ==> k in Allowed
    ensures body.VDict? && (exists k :: k in Keys(body.entries) && k !in Allowed) ==> r.Err?
    // accepted exactly when it is an object whose three fields pass and which has no other key,
    // and then with the stripped strings and the price as a float
    ensures r.Ok? <==> body.VDict? && StrField(body.entries, "name", NameMax).Ok?
                       && StrField(body.entries, "description", DescriptionMax).Ok?
                       && PriceField(body.entries).Ok?
                       && forall k :: k in Keys(body.entries) ==> k in Allowed
    ensures r.Ok? ==> r.value == ItemCreate(StrField(body.entries, "name", NameMax).value,
                                            StrField(body.entries, "description", DescriptionMax).value,
                                            PriceField(body.entries).value)
  {
    match body
    case VDict(es) =>
      var name := StrField(es, "name", NameMax);
      var description := StrField(es, "description", DescriptionMax);
      var price := PriceField(es);
      var extras := Extras(es);
      var errs := ErrorOf("name", name) + ErrorOf("description", description) + ErrorOf("price", price) + extras;
      NoErrorsIff(name, description, price, extras);
      if |errs| == 0 then Ok(ItemCreate(name.value, description.value, price.value))
      else Err(errs)
    case _ => Err([FieldError("", NotAnObject)])
  }

  /** The error list is empty exactly when every field passed and there is no extra key. */
  lemma NoErrorsIff<A, B, C>(a: Result<A, Problem>, b: Result<B, Problem>, c: Result<C, Problem>, extras: seq<FieldError>)
    ensures |ErrorOf("name", a) + ErrorOf("description", b) + ErrorOf("price", c) + extras| == 0
            <==> a.Ok? && b.Ok? && c.Ok? && extras == []
  {
  }

  /** `model_dump()` of a validated request. */
  function Dump(item: ItemCreate): Value {
    VDict([Entry("name", VStr(item.name)), Entry("description", VStr(item.description)), Entry("price", VFloat(item.price))])
  }

  /** Validation keeps exactly what the stripped fields say: validating the dump of an accepted
      request accepts it again unchanged. */
  lemma ValidateDumpRoundTrip(body: Value)
    requires Validate(body).Ok?
    ensures Validate(Dump(Validate(body).value)) == Validate(body)
  {
    var item := Validate(body).value;
    StripFieldStable(body.entries, "name", NameMax);
    StripFieldStable(body.entries, "description", DescriptionMax);
    DumpFields(item);
  }

  /** Each field of a dump reads back as the field it was made from, and a dump has no extras. */
  lemma DumpFields(item: ItemCreate)
    requires 1 <= |item.name| <= NameMax && Strip(item.name, IsWhiteSpace) == item.name
    requires 1 <= |item.description| <= DescriptionMax && Strip(item.description, IsWhiteSpace) == item.description
    requires item.price > 0.0
    ensures Validate(Dump(item)) == Ok(item)
  {
    DumpFieldValues(item);
    DumpNoExtras(item);
    FieldsAccepted(Dump(item).entries);
  }

  lemma DumpFieldValues(item: ItemCreate)
    requires 1 <= |item.name| <= NameMax && Strip(item.name, IsWhiteSpace) == item.name
    requires 1 <= |item.description| <= DescriptionMax && Strip(item.description, IsWhiteSpace) == item.description
    requires item.price > 0.0
    ensures StrField(Dump(item).entries, "name", NameMax) == Ok(item.name)
    ensures StrField(Dump(item).entries, "description", DescriptionMax) == Ok(item.description)
    ensures PriceField(Dump(item).entries) == Ok(item.price)
  {
    DumpLookups(item);
  }

  /** A body whose three fields pass and which has no extra key is accepted with those fields. */
  lemma FieldsAccepted(body: seq<Entry>)
    requires StrField(body, "name", NameMax).Ok? && StrField(body, "description", DescriptionMax).Ok?
    requires PriceField(body).Ok? && Extras(body) == []
    ensures Validate(VDict(body)) == Ok(ItemCreate(StrField(body, "name", NameMax).value,
                                                   StrField(body, "description", DescriptionMax).value,
                                                   PriceField(body).value))
  {
  }

  lemma DumpLookups(item: ItemCreate)
    ensures Lookup(Dump(item).entries, "name") == Some(VStr(item.name))
    ensures Lookup(Dump(item).entries, "description") == Some(VStr(item.description))
    ensures Lookup(Dump(item).entries, "price") == Some(VFloat(item.price))
  {
    var d := Dump(item).entries;
    LookupUnique(d, 0);
    LookupUnique(d, 1);
    LookupUnique(d, 2);
  }

  lemma DumpNoExtras(item: ItemCreate)
    ensures Extras(Dump(item).entries) == []
  {
    var d := Dump(item).entries;
    assert d[1..][1..][1..] == [] && d[1..][1..] == [d[2]] && d[1..] == [d[1], d[2]];
    assert Extras(d[1..][1..]) == Extras(d[1..][1..][1..]) == [];
    assert Extras(d[1..]) == Extras(d[1..][1..]);
  }

  /** The value kept for a string field is the stripped input, which stripping again leaves alone. */
  lemma StripFieldStable(es: seq<Entry>, field: string, max: nat)
    requires max >= 1 && StrField(es, field, max).Ok?
    ensures Strip(StrField(es, field, max).value, IsWhiteSpace) == StrField(es, field, max).value
  {
    StripIdempotent(Lookup(es, field).value.s, IsWhiteSpace);
  }

  /** A name of surrounding whitespace only is rejected as too short, however long the raw text. */
  lemma BlankNameRejected(body: seq<Entry>, s: string)
    requires Lookup(body, "name") == Some(VStr(s))
    requires forall i :: 0 <= i < |s| ==> IsWhiteSpace(s[i])
    ensures Validate(VDict(body)).Err?
    ensures FieldError("name", TooShort) in Validate(VDict(body)).error
  {
    BlankStripsEmpty(s, IsWhiteSpace);
    BlankNameTooShort(body, s);
    NameErrorReported(body);
  }

  lemma BlankNameTooShort(body: seq<Entry>, s: string)
    requires Lookup(body, "name") == Some(VStr(s)) && Strip(s, IsWhiteSpace) == ""
    ensures StrField(body, "name", NameMax) == Err(TooShort)
  {
  }

  /** Whatever is wrong with the name is reported first. */
  lemma NameErrorReported(body: seq<Entry>)
    requires StrField(body, "name", NameMax).Err?
    ensures Validate(VDict(body)).Err?
    ensures Validate(VDict(body)).error[0] == FieldError("name", StrField(body, "name", NameMax).error)
  {
    var errs := ErrorOf("name", StrField(body, "name", NameMax))
                + ErrorOf("description", StrField(body, "description", DescriptionMax))
                + ErrorOf("price", PriceField(body)) + Extras(body);
    assert errs[0] == FieldError("name", StrField(body, "name", NameMax).error);
  }
}

=== FILE: item_service.dfy ===
/** `ItemService`: the item operations the API calls, each a transition of the world made of the
    item table and the cache. `get_item` is the one cached function (prefix "item", ttl 300);
    `update_item` and `delete_item` invalidate `item:<id>` after a successful write. */
module ItemService {
  import opened Wrappers
  import opened Values
  import opened Text
  import opened Glob
  import opened Responses
  import opened Errors
  import opened CacheKey
  import opened Backend
  import opened Cache
  import opened RepoErrors
  import opened ItemRequest
  import Repo = ItemRepository

  datatype World = World(db: Repo.Db, cache: Store)

  /** A cached call: the world afterwards, what the caller sees, and how many times the
      undecorated `get_item` ran. */
  datatype Step = Step(world: World, outcome: Outcome, producerCalls: nat)

  /** An uncached call. */
  datatype Transition = Transition(world: World, outcome: Outcome)

  /** `@cache(ttl=300, prefix="item")` on `ItemService.get_item`. */
  const GetItemCache := CacheConfig(Some(300), Some("item"))
  const GetItemQualname := "ItemService.get_item"

  /** The key `get_item(self, item_id)` is cached under: the service object is not a scalar, so
      only the id text follows the prefix. */
  function ItemKey(id: string): (key: string)
    ensures key == CreateCacheKey(FuncPrefix(GetItemCache.prefix, GetItemQualname), [Other, Str(id)], [])
  {
    MethodKeyWithOneString("item", id);
    "item:" + id
  }

  function FoundMessage(id: string): string {
    "Freelancer item for user " + id + " found"
  }

  /** `StandardResponse(status=result.status, message=result.message, data=result.data.to_dict())`:
      only an item has `to_dict`; for `None` or the id text it raises `AttributeError`. */
  function Respond(r: RepoResponse<Repo.RepoData>): (o: Outcome)
    ensures o.Returned? <==> r.data.ItemData?
    ensures o.Returned? ==> o.value == Response(StandardResponse(Some(Repo.ItemToDict(r.data.item)), r.status, Some(r.message)))
    ensures o.Raised? ==> o.exc.kind == AttributeMissing
  {
    match r.data
    case ItemData(item) => Returned(Response(StandardResponse(Some(Repo.ItemToDict(item)), r.status, Some(r.message))))
    case NoData => Raised(Exc(AttributeMissing, "'NoneType' object has no attribute 'to_dict'"))
    case IdText(_) => Raised(Exc(AttributeMissing, "'str' object has no attribute 'to_dict'"))
  }

  /** The body of `get_item`, undecorated, against a table that stays as it is. */
  function GetItemBody(db: Repo.Db, id: string, fault: Option<RepoFault>): (o: Outcome)
    ensures o.Returned? <==> ParseInt(id).Some? && fault.None? && ParseInt(id).value in db.items
    ensures o.Returned? ==> o.value == Response(StandardResponse(Some(Repo.ItemToDict(db.items[ParseInt(id).value])),
                                                                 "success", Some(FoundMessage(id))))
    ensures o.Raised? && o.exc.kind == NotFound
            <==> ParseInt(id).Some? && fault.None? && ParseInt(id).value !in db.items
    ensures o.Raised? && o.exc.kind == NotFound ==> o.exc.detail == "Freelancer item for user " + id + " not found"
  {
    var h := Repo.GetItem(db, id, fault);
    match h.result
    case Err(e) => Raised(e)
    case Ok(r) =>
      if r.status == "success" then Respond(r)
      else if r.errorCode == "ITEM_NOT_FOUND" then Raised(Exc(NotFound, r.message))
      else Respond(r)
  }

  /** `get_item` behind the cache decorator, with a given treatment of `message=None` on a hit.
      `dbFaults(n)` is the database failure during the `n`-th run of the body. */
  function CachedGetItem(w: World, id: string, faults: Faults, dbFaults: nat -> Option<RepoFault>,
                         show: Produced -> string, rule: MessageRule): (s: Step)
    ensures s.world.db == w.db && s.producerCalls <= 2
    // the only entry it can write is the one under `item:<id>`, holding a found item
    ensures forall k :: k in s.world.cache && (k !in w.cache || s.world.cache[k] != w.cache[k]) ==> k == ItemKey(id)
    ensures s.world.cache != w.cache ==> s.producerCalls == 1 && s.outcome.Returned?
    ensures s.world.cache != w.cache ==> s.outcome == GetItemBody(w.db, id, dbFaults(0))
    ensures s.world.cache != w.cache ==> ItemKey(id) in s.world.cache && s.world.cache[ItemKey(id)].ttl == 300
    // and what it writes there is the encoding of that found item's response
    ensures s.world.cache != w.cache ==>
              s.world.cache[ItemKey(id)] == CacheEntry(Encode(GetItemBody(w.db, id, dbFaults(0)).value, show), 300)
    ensures s.world.cache.Keys >= w.cache.Keys
    ensures s.producerCalls > 0 ==> s.outcome == GetItemBody(w.db, id, dbFaults(s.producerCalls - 1))
  {
    var produce := (n: nat) => GetItemBody(w.db, id, dbFaults(n));
    var ttl := EffectiveTtl(GetItemCache.ttl);
    assert ttl == 300;
    var c := CachedCall(w.cache, faults, ItemKey(id), ttl, ResponseShape, produce, show, rule);
    assert c.store != w.cache ==> c.store[ItemKey(id)] == CacheEntry(Encode(produce(0).value, show), 300);
    assert produce(0) == GetItemBody(w.db, id, dbFaults(0));
    Step(World(w.db, c.store), c.outcome, c.calls)
  }

  /** `ItemService.get_item(item_id)`, with `None` taken as "no message" when a hit is rebuilt. */
  function GetItem(w: World, id: string, faults: Faults, dbFaults: nat -> Option<RepoFault>,
                   show: Produced -> string): (s: Step)
    ensures s.world.db == w.db
    ensures s.world.cache != w.cache ==> s.outcome.Returned?
  {
    CachedGetItem(w, id, faults, dbFaults, show, NoneAllowed)
  }

  /** A string under the item's key is served as it is, wrapped as `{"response": ...}`, without
      running the body. */
  lemma GetItemServesStringHit(w: World, id: string, faults: Faults, dbFaults: nat -> Option<RepoFault>,
                               show: Produced -> string, s: string)
    requires faults.get.None? && ItemKey(id) in w.cache && w.cache[ItemKey(id)].payload == Encoded(VStr(s))
    ensures var g := GetItem(w, id, faults, dbFaults, show);
            && g.producerCalls == 0 && g.world == w
            && g.outcome == Returned(Response(StandardResponse(Some([Entry("response", VStr(s))]), "success", None)))
  {
    StringHitServedCall(w.cache, faults, ItemKey(id), 300, s, (n: nat) => GetItemBody(w.db, id, dbFaults(n)), show);
  }

  /** `ItemService.update_item(item, item_id)`. */
  function UpdateItem(w: World, req: ItemCreate, id: string, now: string, fault: Option<Repo.WriteFault>, faults: Faults): (t: Transition)
    requires w.db.Valid()
    ensures t.world.db.Valid()
    // the table changes exactly when the update commits, and then as a clean update would change it
    ensures !Repo.Commits(w.db, id, fault) ==> t.world.db == w.db
    ensures Repo.Commits(w.db, id, fault) ==> t.world.db == Repo.UpdateItem(w.db, req, id, now, None).state
    // the cache is touched only after a successful update, and only under `item:<id>`
    ensures !(ParseInt(id).Some? && fault.None? && ParseInt(id).value in w.db.items) ==> t.world.cache == w.cache
    ensures t.world.cache.Keys <= w.cache.Keys
    ensures forall k :: k in w.cache && k != ItemKey(id) ==> k in t.world.cache && t.world.cache[k] == w.cache[k]
    ensures ParseInt(id).Some? && fault.None? && ParseInt(id).value in w.db.items && faults.keys.None? && faults.delete.None?
            ==> t.world.cache == w.cache - {ItemKey(id)} && t.outcome.Returned?
    ensures ParseInt(id).Some? && fault.None? && ParseInt(id).value !in w.db.items
            ==> t.outcome == Raised(Exc(NotFound, "Freelancer item for user " + id + " not found"))
    // a database failure other than `ValueError` surfaces as a 500, committed or not
    ensures ParseInt(id).Some? && fault.Some? && !fault.value.fault.BadValue?
            ==> t.outcome.Raised? && StatusCode(t.outcome.exc.kind) == Some(500)
  {
    var h := Repo.UpdateItem(w.db, req, id, now, fault);
    match h.result
    case Err(e) => Transition(World(h.state, w.cache), Raised(e))
    case Ok(r) =>
      if r.status == "success" then
        InvalidateItemKey(w.cache, faults, id);
        Transition(World(h.state, Invalidate(w.cache, faults, "item", id).store), Respond(r))
      else if r.errorCode == "ITEM_NOT_FOUND" then Transition(World(h.state, w.cache), Raised(Exc(NotFound, r.message)))
      else Transition(World(h.state, w.cache), Respond(r))
  }

  /** `ItemService.delete_item(item_id)`. The repository answers a deletion with the id text as
      `data`, which has no `to_dict`, so the call never returns normally, even after it has
      deleted the row and invalidated its entry. */
  function DeleteItem(w: World, id: string, fault: Option<RepoFault>, faults: Faults): (t: Transition)
    requires w.db.Valid()
    ensures t.world.db.Valid()
    ensures t.outcome.Raised?
    ensures !(ParseInt(id).Some? && fault.None? && ParseInt(id).value in w.db.items) ==> t.world == w
    ensures ParseInt(id).Some? && fault.None? && ParseInt(id).value in w.db.items ==>
              t.world.db.items == w.db.items - {ParseInt(id).value} && t.outcome.exc.kind == AttributeMissing
    ensures t.world.cache.Keys <= w.cache.Keys
    ensures forall k :: k in w.cache && k != ItemKey(id) ==> k in t.world.cache && t.world.cache[k] == w.cache[k]
    ensures ParseInt(id).Some? && fault.None? && ParseInt(id).value in w.db.items && faults.keys.None? && faults.delete.None?
            ==> t.world.cache == w.cache - {ItemKey(id)}
  {
    var h := Repo.DeleteItem(w.db, id, fault);
    match h.result
    case Err(e) => Transition(World(h.state, w.cache), Raised(e))
    case Ok(r) =>
      if r.status == "success" then
        InvalidateItemKey(w.cache, faults, id);
        Transition(World(h.state, Invalidate(w.cache, faults, "item", id).store), Respond(r))
      else Transition(World(h.state, w.cache), Respond(r))
  }

  /** `ItemService.create_item(item)`: it neither reads nor writes the cache. */
  function CreateItem(w: World, req: ItemCreate, now: string, fault: Option<Repo.WriteFault>): (t: Transition)
    requires w.db.Valid()
    ensures t.world.db.Valid()
    ensures t.world.cache == w.cache
    ensures fault.None? ==> t.outcome.Returned? && w.db.nextId in t.world.db.items
                            && t.world.db.items[w.db.nextId].name == req.name
    ensures fault.Some? ==> t.outcome.Raised? && StatusCode(t.outcome.exc.kind) == Some(500)
    // a failure before the commit leaves the rows alone (an INSERT that reached the database still
    // used up its id); one after it leaves the new row behind
    ensures fault.Some? && fault.value.stage != Repo.AfterCommit ==> t.world.db.items == w.db.items
    ensures fault.Some? && fault.value.stage == Repo.BeforeFlush ==> t.world.db == w.db
    ensures fault.Some? && fault.value.stage == Repo.AtFlush ==> t.world.db == w.db.(nextId := w.db.nextId + 1)
    ensures fault.Some? && fault.value.stage == Repo.AfterCommit ==> t.world.db == Repo.CreateItem(w.db, req, now, None).state
  {
    var h := Repo.CreateItem(w.db, req, now, fault);
    match h.result
    case Err(e) => Transition(World(h.state, w.cache), Raised(e))
    case Ok(r) => Transition(World(h.state, w.cache), Respond(r))
  }

  /** For an id that `int()` accepts, invalidating `item` with the id as pattern can only remove
      the entry `get_item` uses for that id, and does remove it when the commands work: such an
      id holds no glob metacharacter. */
  lemma InvalidateItemKey(cache: Store, faults: Faults, id: string)
    requires ParseInt(id).Some?
    ensures var after := Invalidate(cache, faults, "item", id).store;
            forall k :: k in cache && k != ItemKey(id) ==> k in after && after[k] == cache[k]
    ensures faults.keys.None? && faults.delete.None?
            ==> Invalidate(cache, faults, "item", id).store == cache - {ItemKey(id)}
  {
    ParsedTextChars(id);
    ItemPatternIsLiteral(id);
    InvalidateLiteralId(cache, faults, id);
  }

  /** The same, for any id without `*`. */
  lemma InvalidateLiteralId(cache: Store, faults: Faults, id: string)
    requires '*' !in id && '*' !in "item:" + id
    ensures var after := Invalidate(cache, faults, "item", id).store;
            forall k :: k in cache && k != ItemKey(id) ==> k in after && after[k] == cache[k]
    ensures faults.keys.None? && faults.delete.None?
            ==> Invalidate(cache, faults, "item", id).store == cache - {ItemKey(id)}
  {
    forall k | k in cache && k != ItemKey(id) ensures !Matches("item:" + id, k) {
      LiteralMatchesItself("item:" + id, k);
    }
    if faults.keys.None? && faults.delete.None? {
      assert ItemKey(id) == "item" + ":" + id;
      InvalidateOne(cache, faults, "item", id);
    }
  }

  /** An id made of the characters `int()` accepts holds no `*`, so neither does the pattern
      built from it. */
  lemma ItemPatternIsLiteral(id: string)
    requires forall i :: 0 <= i < |id| ==> IntChar(id[i])
    ensures '*' !in id && '*' !in "item:" + id
  {
    assert '*' !in "item:";
  }

  // ---------------- The cache and the table together ----------------

  /** A database that never fails. */
  function NoDbFaults(n: nat): Option<RepoFault> {
    None
  }

  /** The response `get_item` builds for a found row. */
  function FoundResponse(db: Repo.Db, id: string): StandardResponse
    requires ParseInt(id).Some? && ParseInt(id).value in db.items
  {
    StandardResponse(Some(Repo.ItemToDict(db.items[ParseInt(id).value])), "success", Some(FoundMessage(id)))
  }

  /** After a successful update of `id`, the next `get_item(id)` misses, reloads the row, and
      returns the updated fields. */
  lemma UpdateThenGetReloads(w: World, req: ItemCreate, id: string, now: string, show: Produced -> string)
    requires w.db.Valid() && ParseInt(id).Some? && ParseInt(id).value in w.db.items
    ensures var u := UpdateItem(w, req, id, now, None, NoFaults);
            var g := GetItem(u.world, id, NoFaults, NoDbFaults, show);
            var row := u.world.db.items[ParseInt(id).value];
            && row.name == req.name && row.description == req.description && row.price == req.price
            && g.producerCalls == 1
            && g.outcome == Returned(Response(FoundResponse(u.world.db, id)))
  {
    var u := UpdateItem(w, req, id, now, None, NoFaults);
    assert ItemKey(id) !in u.world.cache;
    var g := GetItem(u.world, id, NoFaults, NoDbFaults, show);
    assert GetItemBody(u.world.db, id, NoDbFaults(0)).Returned?;
  }

  /** A lookup of an absent row runs the body twice (the first `NotFoundException` is caught by
      the cache wrapper), raises a 404, and caches nothing. */
  lemma NotFoundNeverCached(w: World, id: string, faults: Faults, show: Produced -> string)
    requires ParseInt(id).Some? && ParseInt(id).value !in w.db.items
    requires faults.get.None? && Miss(w.cache, ItemKey(id))
    ensures var g := GetItem(w, id, faults, NoDbFaults, show);
            && g.producerCalls == 2
            && g.world == w
            && g.outcome == Raised(Exc(NotFound, "Freelancer item for user " + id + " not found"))
            && StatusCode(g.outcome.exc.kind) == Some(404)
  {
    var body := GetItemBody(w.db, id, None);
    assert body.Raised? && body.exc.kind == NotFound;
  }

  /** A deleted row is gone from the table and from the cache: the next lookup reports it missing. */
  lemma DeleteThenGetMisses(w: World, id: string, show: Produced -> string)
    requires w.db.Valid() && ParseInt(id).Some? && ParseInt(id).value in w.db.items
    ensures var d := DeleteItem(w, id, None, NoFaults);
            var g := GetItem(d.world, id, NoFaults, NoDbFaults, show);
            && d.outcome.Raised? && d.outcome.exc.kind == AttributeMissing
            && g.producerCalls == 2
            && g.outcome == Raised(Exc(NotFound, "Freelancer item for user " + id + " not found"))
  {
    var d := DeleteItem(w, id, None, NoFaults);
    assert ItemKey(id) !in d.world.cache;
    NotFoundNeverCached(d.world, id, NoFaults, show);
  }

  /** The dict of a found row holds `datetime` values, so the response is cached as its `str()`,
      and the next lookup returns that text wrapped as `{"response": ...}` instead of the row. */
  lemma CachedItemBecomesString(w: World, id: string, show: Produced -> string, later: nat -> Option<RepoFault>)
    requires ParseInt(id).Some? && ParseInt(id).value in w.db.items
    requires Miss(w.cache, ItemKey(id))
    ensures var first := GetItem(w, id, NoFaults, NoDbFaults, show);
            var text := show(Response(FoundResponse(w.db, id)));
            var second := GetItem(first.world, id, NoFaults, later, show);
            && first.producerCalls == 1
            && first.outcome == Returned(Response(FoundResponse(w.db, id)))
            && first.world.cache[ItemKey(id)].payload == Encoded(VStr(text))
            && second.producerCalls == 0
            && second.outcome == Returned(Response(StandardResponse(Some([Entry("response", VStr(text))]), "success", None)))
  {
    var r := FoundResponse(w.db, id);
    ResponseNotJson(w.db, id);
    ResponseStoredAsString(r, show);
    var first := GetItem(w, id, NoFaults, NoDbFaults, show);
    assert GetItemBody(w.db, id, NoDbFaults(0)) == Returned(Response(r));
    assert first.world.cache[ItemKey(id)].payload == Encode(Response(r), show);
    StringHitServedCall(first.world.cache, NoFaults, ItemKey(id), 300, show(Response(r)),
                        (n: nat) => GetItemBody(first.world.db, id, later(n)), show);
  }

  /** The response for a found row cannot be encoded as JSON. */
  lemma ResponseNotJson(db: Repo.Db, id: string)
    requires ParseInt(id).Some? && ParseInt(id).value in db.items
    ensures !IsJson(VDict(ToDict(FoundResponse(db, id))))
  {
    var d := ToDict(FoundResponse(db, id));
    assert d[0].val == VDict(Repo.ItemToDict(db.items[ParseInt(id).value]));
  }

  /** As written, with `message=None` rejected by the field's declared type, the string a found
      row was cached as is never served: every later lookup runs the body again. */
  lemma ItemHitsNeverServedAsDeclared(w: World, id: string, show: Produced -> string, later: nat -> Option<RepoFault>)
    requires ParseInt(id).Some? && ParseInt(id).value in w.db.items
    requires Miss(w.cache, ItemKey(id))
    ensures var first := CachedGetItem(w, id, NoFaults, NoDbFaults, show, AsDeclared);
            var second := CachedGetItem(first.world, id, NoFaults, later, show, AsDeclared);
            && first.producerCalls == 1
            && second.producerCalls == 1
            && second.world == first.world
            && second.outcome == GetItemBody(w.db, id, later(0))
  {
    var r := FoundResponse(w.db, id);
    ResponseNotJson(w.db, id);
    var first := CachedGetItem(w, id, NoFaults, NoDbFaults, show, AsDeclared);
    assert GetItemBody(w.db, id, NoDbFaults(0)) == Returned(Response(r));
    assert first.world.cache[ItemKey(id)].payload == Encoded(VStr(show(Response(r))));
    StringHitRunsProducerAsDeclared(first.world.cache, NoFaults, ItemKey(id), 300, show(Response(r)),
                                    (n: nat) => GetItemBody(first.world.db, id, later(n)), show);
  }

  /** Invalidation uses the id text, not the parsed number: updating row 42 through the spelling
      `"042"` leaves the entry cached under `"42"` in place, and a lookup through `"42"` keeps
      returning it without reading the table. */
  lemma AlternateSpellingStaysStale(w: World, req: ItemCreate, now: string, show: Produced -> string,
                                    later: nat -> Option<RepoFault>)
    requires w.db.Valid() && 42 in w.db.items
    requires ItemKey("42") in w.cache
    requires Decode(w.cache[ItemKey("42")].payload, ResponseShape, NoneAllowed).Some?
    ensures var u := UpdateItem(w, req, "042", now, None, NoFaults);
            && u.world.db.items[42].name == req.name
            && ItemKey("42") in u.world.cache && u.world.cache[ItemKey("42")] == w.cache[ItemKey("42")]
            && GetItem(u.world, "42", NoFaults, later, show).producerCalls == 0
  {
    Repo.SpellingsShareRow();
    assert ItemKey("42") != ItemKey("042") by {
      assert |ItemKey("42")| != |ItemKey("042")|;
    }
  }

  /** A failure after the update's commit (in `refresh`) leaves the row updated while the caller
      sees a 500, and skips the invalidation: the entry under `item:<id>` outlives the write, and
      the next lookup answers from it without reading the table. */
  lemma CommittedUpdateKeepsStaleEntry(w: World, req: ItemCreate, id: string, now: string, f: RepoFault,
                                       faults: Faults, later: nat -> Option<RepoFault>, show: Produced -> string)
    requires w.db.Valid() && ParseInt(id).Some? && ParseInt(id).value in w.db.items && !f.BadValue?
    requires ItemKey(id) in w.cache && Decode(w.cache[ItemKey(id)].payload, ResponseShape, NoneAllowed).Some?
    ensures var u := UpdateItem(w, req, id, now, Some(Repo.WriteFault(f, Repo.AfterCommit)), faults);
            var g := GetItem(u.world, id, NoFaults, later, show);
            && u.outcome.Raised? && StatusCode(u.outcome.exc.kind) == Some(500)
            && u.world.db == Repo.UpdateItem(w.db, req, id, now, None).state
            && u.world.cache == w.cache
            && g.producerCalls == 0
            && g.outcome == Returned(Decode(w.cache[ItemKey(id)].payload, ResponseShape, NoneAllowed).value)
  {
  }
}

=== FILE: logger.dfy ===
/** The logging front end of `utils/logger.py`: the scrubber that masks sensitive values before
    anything is logged, the choice of which exceptions to log, and the level gates of
    `ConditionalLogger`. The log output and the tracing spans themselves are not modelled. */
module Logger {
  import opened Wrappers
  import opened Values
  import opened Text

  /** `SENSITIVE_FIELDS` */
  const SensitiveFields: set<string> :=
    {"password", "secret", "token", "key", "auth", "credentials", "pin", "access_token", "refresh_token", "id_token"}

  /** `"*" * 8` */
  const Mask := "********"

  /** A key is sensitive when its lower-case form contains one of the sensitive words anywhere,
      so `"API_KEY"` and `"monkey"` both are. */
  predicate IsSensitive(key: string) {
    exists word :: word in SensitiveFields && Contains(Lower(key), word)
  }

  /** `scrub_sensitive_data(data)`: a dict is copied with the truthy values of sensitive keys
      masked, nested dicts scrubbed, and the dict elements of lists scrubbed; anything that is not
      a dict comes back as it is. */
  function Scrub(v: Value): (r: Value)
    decreases v, 0
    ensures !v.VDict? ==> r == v
    ensures v.VDict? ==> r.VDict? && Keys(r.entries) == Keys(v.entries)
    ensures v.VDict? ==> forall i :: 0 <= i < |v.entries| ==>
              (IsSensitive(v.entries[i].key) && Truthy(v.entries[i].val) ==> r.entries[i].val == VStr(Mask))
    ensures v.VDict? ==> forall i :: 0 <= i < |v.entries| ==>
              (!(IsSensitive(v.entries[i].key) && Truthy(v.entries[i].val)) && !v.entries[i].val.VDict? && !v.entries[i].val.VList?
               ==> r.entries[i].val == v.entries[i].val)
  {
    match v
    case VDict(es) => VDict(seq(|es|, i requires 0 <= i < |es| => Entry(es[i].key, ScrubField(es[i].key, es[i].val))))
    case _ => v
  }

  /** The scrubbed value stored under `key`. */
  function ScrubField(key: string, val: Value): (r: Value)
    decreases val, 1
    ensures Truthy(r) <==> Truthy(val)
    ensures val.VDict? && !(IsSensitive(key) && Truthy(val)) ==> r.VDict?
    // a list keeps its length and its elements that are not dicts; lists inside it are not entered
    ensures val.VList? && !(IsSensitive(key) && Truthy(val)) ==>
              && r.VList? && |r.items| == |val.items|
              && (forall j :: 0 <= j < |val.items| ==> (r.items[j].VDict? <==> val.items[j].VDict?))
              && (forall j :: 0 <= j < |val.items| && !val.items[j].VDict? ==> r.items[j] == val.items[j])
  {
    if IsSensitive(key) && Truthy(val) then VStr(Mask)
    else
      match val
      case VDict(_) => Scrub(val)
      case VList(items) => VList(seq(|items|, j requires 0 <= j < |items| => if items[j].VDict? then Scrub(items[j]) else items[j]))
      case _ => val
  }

  /** Scrubbing a scrubbed value changes nothing. */
  lemma {:induction false} ScrubIdempotent(v: Value)
    decreases v, 0
    ensures Scrub(Scrub(v)) == Scrub(v)
  {
    match v
    case VDict(es) =>
      var once := Scrub(v).entries;
      forall i | 0 <= i < |es| ensures Scrub(Scrub(v)).entries[i] == once[i] {
        ScrubFieldIdempotent(es[i].key, es[i].val);
      }
    case _ =>
  }

  lemma {:induction false} ScrubFieldIdempotent(key: string, val: Value)
    decreases val, 1
    ensures ScrubField(key, ScrubField(key, val)) == ScrubField(key, val)
  {
    if IsSensitive(key) && Truthy(val) {
    } else {
      match val
      case VDict(_) => ScrubIdempotent(val);
      case VList(items) =>
        var once := ScrubField(key, val).items;
        forall j | 0 <= j < |items| ensures ScrubField(key, ScrubField(key, val)).items[j] == once[j] {
          if items[j].VDict? {
            ScrubIdempotent(items[j]);
          }
        }
      case _ =>
    }
  }

  /** What survives scrubbing under a sensitive key at the top level is the mask or a falsy value. */
  lemma NoSecretSurvives(es: seq<Entry>)
    ensures forall i :: 0 <= i < |es| && IsSensitive(es[i].key) ==>
              Scrub(VDict(es)).entries[i].val == VStr(Mask) || !Truthy(Scrub(VDict(es)).entries[i].val)
  {
    forall i | 0 <= i < |es| && IsSensitive(es[i].key)
      ensures Scrub(VDict(es)).entries[i].val == VStr(Mask) || !Truthy(Scrub(VDict(es)).entries[i].val)
    {
      assert Scrub(VDict(es)).entries[i].val == ScrubField(es[i].key, es[i].val);
    }
  }

  /** No secret is left where the scrubber looks: under every sensitive key of a dict, of a dict
      nested in it, and of a dict inside one of its lists, the value is the mask or falsy. Lists
      inside lists are not looked into, as the scrubber does not look into them either. */
  predicate Clean(v: Value)
    decreases v, 0
  {
    match v
    case VDict(es) => forall i :: 0 <= i < |es| ==> CleanField(es[i].key, es[i].val)
    case _ => true
  }

  /** The value under `key` of a clean dict. */
  predicate CleanField(key: string, val: Value)
    decreases val, 1
  {
    && (IsSensitive(key) && Truthy(val) ==> val == VStr(Mask))
    && match val
       case VDict(_) => Clean(val)
       case VList(items) => forall j :: 0 <= j < |items| && items[j].VDict? ==> Clean(items[j])
       case _ => true
  }

  /** Whatever it is given, the scrubber returns a clean value. */
  lemma {:induction false} ScrubClean(v: Value)
    decreases v, 0
    ensures Clean(Scrub(v))
  {
    match v
    case VDict(es) =>
      var r := Scrub(v).entries;
      forall i | 0 <= i < |es| ensures CleanField(r[i].key, r[i].val) {
        ScrubFieldClean(es[i].key, es[i].val);
      }
    case _ =>
  }

  lemma {:induction false} ScrubFieldClean(key: string, val: Value)
    decreases val, 1
    ensures CleanField(key, ScrubField(key, val))
  {
    if IsSensitive(key) && Truthy(val) {
    } else {
      match val
      case VDict(_) => ScrubClean(val);
      case VList(items) =>
        var r := ScrubField(key, val).items;
        forall j | 0 <= j < |r| && r[j].VDict? ensures Clean(r[j]) {
          ScrubClean(items[j]);
        }
      case _ =>
    }
  }

  /** A clean value is left exactly as it is: the clean values are the scrubber's fixed points. */
  lemma {:induction false} CleanUnchanged(v: Value)
    decreases v, 0
    requires Clean(v)
    ensures Scrub(v) == v
  {
    match v
    case VDict(es) =>
      var r := Scrub(v).entries;
      forall i | 0 <= i < |es| ensures r[i] == es[i] {
        CleanFieldUnchanged(es[i].key, es[i].val);
      }
      assert r == es;
    case _ =>
  }

  lemma {:induction false} CleanFieldUnchanged(key: string, val: Value)
    decreases val, 1
    requires CleanField(key, val)
    ensures ScrubField(key, val) == val
  {
    if IsSensitive(key) && Truthy(val) {
    } else {
      match val
      case VDict(_) => CleanUnchanged(val);
      case VList(items) =>
        var r := ScrubField(key, val).items;
        forall j | 0 <= j < |items| ensures r[j] == items[j] {
          if items[j].VDict? {
            CleanUnchanged(items[j]);
          }
        }
        assert r == items;
      case _ =>
    }
  }

  /** A few concrete keys: matching is by substring of the lower-case key. */
  lemma SensitiveExamples()
    ensures IsSensitive("API_Key")
    ensures IsSensitive("author")
  {
    assert Lower("API_Key") == "api_key";
    assert "api_key"[4..] == "key" && "api_key"[4..][..3] == "key";
    assert Contains("key", "key");
    assert Contains("_key", "key") && Contains("i_key", "key") && Contains("pi_key", "key");
    assert Contains("api_key", "key");
    assert "key" in SensitiveFields;
    assert Lower("author") == "author";
    assert "author"[..4] == "auth";
    assert Contains("author", "auth");
    assert "auth" in SensitiveFields;
  }

  // ---------------- Exceptions ----------------

  const CriticalExceptions: set<string> := {"UnexpectedException", "DatabaseException", "DatabaseIntegrityException"}

  /** `should_log_exception(cls)`: the critical exceptions always, everything in development. */
  predicate ShouldLogException(className: string, environment: string) {
    className in CriticalExceptions || environment == "development"
  }

  // ---------------- Levels ----------------

  datatype Severity = Debug | Info | Warning | Error

  /** The numeric level of the `logging` call each method makes (`exception` logs at ERROR). */
  function SeverityLevel(s: Severity): int {
    match s
    case Debug => 10
    case Info => 20
    case Warning => 30
    case Error => 40
  }

  /** `getattr(logging, LOG_LEVEL, logging.INFO)` for a level name; any other name gives INFO. */
  function LevelFromName(name: string): (level: int)
    ensures level in {0, 10, 20, 30, 40, 50}
    ensures name !in {"NOTSET", "DEBUG", "INFO", "WARN", "WARNING", "ERROR", "FATAL", "CRITICAL"} ==> level == 20
  {
    match name
    case "NOTSET" => 0
    case "DEBUG" => 10
    case "INFO" => 20
    case "WARN" => 30
    case "WARNING" => 30
    case "ERROR" => 40
    case "FATAL" => 50
    case "CRITICAL" => 50
    case _ => 20
  }

  /** The singleton logger: its `log_level` (also the level of the `app` Python logger) and the
      level `basicConfig` gave the root logger. */
  datatype ConditionalLogger = ConditionalLogger(level: int, rootLevel: int)

  /** The logger as configured at import: both levels from the `LOG_LEVEL` setting. */
  function InitialLogger(logLevel: string): ConditionalLogger {
    ConditionalLogger(LevelFromName(logLevel), LevelFromName(logLevel))
  }

  /** `set_level(level)` changes the logger's own level, not the root's. */
  function SetLevel(lg: ConditionalLogger, level: int): (r: ConditionalLogger)
    ensures r.level == level && r.rootLevel == lg.rootLevel
  {
    lg.(level := level)
  }

  /** Whether a method passes the record to the Python logger: `debug` and `info` check
      `log_level` first, `warn` and `error` do not. */
  predicate Forwards(lg: ConditionalLogger, s: Severity) {
    match s
    case Debug => lg.level <= 10
    case Info => lg.level <= 20
    case _ => true
  }

  /** The Python logger's own filter: a level of 0 defers to the root logger. */
  predicate PythonEnabled(lg: ConditionalLogger, s: Severity) {
    SeverityLevel(s) >= (if lg.level != 0 then lg.level else lg.rootLevel)
  }

  /** A record that reaches the output: its severity, its message, and the scrubbed `extra`
      attached as `otel`. */
  datatype LogRecord = LogRecord(severity: Severity, message: string, otel: Value)

  /** `logger.debug/info/warn/error(message, extra)`. */
  function Log(lg: ConditionalLogger, s: Severity, message: string, extra: Option<seq<Entry>>): (r: Option<LogRecord>)
    ensures r.Some? <==> Forwards(lg, s) && PythonEnabled(lg, s)
    ensures r.Some? ==> r.value.otel == Scrub(VDict(extra.GetOr([]))) && r.value.message == message
  {
    if Forwards(lg, s) && PythonEnabled(lg, s) then Some(LogRecord(s, message, Scrub(VDict(extra.GetOr([]))))) else None
  }

  /** `dict[key] = value`: replaces the value in place, or appends the pair. */
  function Put(es: seq<Entry>, key: string, v: Value): (r: seq<Entry>)
    ensures Lookup(r, key) == Some(v)
    ensures key in Keys(es) ==> Keys(r) == Keys(es)
    ensures key !in Keys(es) ==> Keys(r) == Keys(es) + [key]
  {
    if key in Keys(es) then
      var r := seq(|es|, i requires 0 <= i < |es| => if es[i].key == key then Entry(key, v) else es[i]);
      assert Keys(r) == Keys(es);
      LookupReplaced(es, r, key, v);
      r
    else
      var r := es + [Entry(key, v)];
      assert Keys(r) == Keys(es) + [key];
      r
  }

  /** Replacing every value under `key` makes the lookup find the new value. */
  lemma {:induction false} LookupReplaced(es: seq<Entry>, r: seq<Entry>, key: string, v: Value)
    requires |r| == |es| && key in Keys(es)
    requires forall i :: 0 <= i < |es| ==> r[i] == if es[i].key == key then Entry(key, v) else es[i]
    ensures Lookup(r, key) == Some(v)
    decreases |es|
  {
    var n := |es| - 1;
    if es[n].key != key {
      assert Keys(es) == Keys(es[..n]) + [es[n].key];
      LookupReplaced(es[..n], r[..n], key, v);
    }
  }

  /** `logger.exception(e, message, extra)`: nothing unless the exception class is to be logged;
      the message defaults to `"Exception: " + str(e)`, and the scrubbed extra carries the class
      name as `exception_type`. */
  function LogException(lg: ConditionalLogger, environment: string, className: string, excText: string,
                        message: Option<string>, extra: Option<seq<Entry>>): (r: Option<LogRecord>)
    ensures r.Some? ==> className in CriticalExceptions || environment == "development"
    ensures r.Some? <==> ShouldLogException(className, environment) && PythonEnabled(lg, Error)
    ensures r.Some? && (message.None? || message == Some("")) ==> r.value.message == "Exception: " + excText
    ensures r.Some? ==> r.value.otel.VDict? && Lookup(r.value.otel.entries, "exception_type") == Some(VStr(className))
  {
    if !ShouldLogException(className, environment) || !PythonEnabled(lg, Error) then None
    else
      var text := if message.None? || message.value == "" then "Exception: " + excText else message.value;
      var safe := Scrub(VDict(extra.GetOr([]))).entries;
      Some(LogRecord(Error, text, VDict(Put(safe, "exception_type", VStr(className)))))
  }

  /** `warn` and `error` bypass the logger's own gate; `debug` and `info` are emitted exactly when
      `log_level` allows them, unless a level of 0 hands the decision to a stricter root. */
  lemma LevelGates(lg: ConditionalLogger, message: string, extra: Option<seq<Entry>>)
    ensures Forwards(lg, Warning) && Forwards(lg, Error)
    ensures Log(lg, Warning, message, extra).Some? <==> PythonEnabled(lg, Warning)
    ensures lg.level != 0 ==> (Log(lg, Debug, message, extra).Some? <==> lg.level <= 10)
    ensures lg.level != 0 ==> (Log(lg, Info, message, extra).Some? <==> lg.level <= 20)
    ensures lg.level == 0 && lg.rootLevel > 10 ==> Log(lg, Debug, message, extra).None?
  {
  }

  /** After `set_level(DEBUG)` every severity is emitted; after `set_level(0)` the logger's own
      gate opens and the root's level alone decides, while the logger's earlier level is forgotten. */
  lemma SetLevelGates(lg: ConditionalLogger, message: string, extra: Option<seq<Entry>>)
    ensures forall s :: Log(SetLevel(lg, 10), s, message, extra).Some?
    ensures Log(SetLevel(lg, 0), Debug, message, extra).Some? <==> lg.rootLevel <= 10
    ensures Log(SetLevel(lg, 0), Info, message, extra).Some? <==> lg.rootLevel <= 20
  {
    forall s ensures Log(SetLevel(lg, 10), s, message, extra).Some? {
      assert SeverityLevel(s) >= 10;
    }
  }
}

=== FILE: repo_errors.dfy ===
/** `handle_repo_errors`: the decorator around every repository operation that turns a database
    exception into a rollback and an HTTP exception with a fixed, driver-independent detail. */
module RepoErrors {
  import opened Wrappers
  import opened Text
  import opened Errors
  import opened Responses

  /** The exception a repository operation raised, by class, with its `str()`. */
  datatype RepoFault =
    | Integrity(text: string)      // sqlalchemy.exc.IntegrityError
    | SqlAlchemy(text: string)     // any other sqlalchemy.exc.SQLAlchemyError
    | BadValue(text: string)       // ValueError
    | Unclassified(text: string)   // any other exception

  /** What the handler logs, and what it raises. */
  datatype Classified = Classified(response: RepoResponse<string>, raised: Exc)

  /** The error code and fixed message chosen for a fault; the raw text only goes into `data`. */
  function Classify(f: RepoFault): (c: Classified)
    ensures c.response.status == "error" && c.response.data == f.text
    ensures c.raised.detail == c.response.message
    ensures StatusCode(c.raised.kind) == Some(500)
    // an IntegrityError is always an integrity exception, whatever else it is
    ensures f.Integrity? <==> c.raised.kind == DatabaseIntegrity
    ensures f.Integrity? ==> (c.response.errorCode == "DUPLICATE_ENTITY" <==> Contains(f.text, "unique constraint"))
    ensures f.SqlAlchemy? <==> c.raised.kind == Database
    ensures f.BadValue? || f.Unclassified? <==> c.raised.kind == Unexpected
  {
    match f
    case Integrity(text) =>
      if Contains(text, "unique constraint") then
        Classified(RepoResponse("error", "DUPLICATE_ENTITY", "Duplicate entity", text), Exc(DatabaseIntegrity, "Duplicate entity"))
      else
        Classified(RepoResponse("error", "INTEGRITY_ERROR", "Integrity error occurred", text), Exc(DatabaseIntegrity, "Integrity error occurred"))
    case SqlAlchemy(text) =>
      Classified(RepoResponse("error", "DATABASE_ERROR", "Database error occurred", text), Exc(Database, "Database error occurred"))
    case BadValue(text) =>
      Classified(RepoResponse("error", "UNEXPECTED_ERROR", "Unexpected error occurred", text), Exc(Unexpected, "Unexpected error occurred"))
    case Unclassified(text) =>
      Classified(RepoResponse("error", "UNEXPECTED_ERROR", "Unexpected error occurred", text), Exc(Unexpected, "Unexpected error occurred"))
  }

  /** The four details a repository failure can surface with. */
  const FixedDetails: set<string> :=
    {"Duplicate entity", "Integrity error occurred", "Database error occurred", "Unexpected error occurred"}

  /** The raised detail and the logged message are one of four fixed strings, and they depend on
      the driver's text only through whether an IntegrityError mentions a unique constraint. */
  lemma DetailIsFixed(f: RepoFault, g: RepoFault)
    ensures Classify(f).raised.detail in FixedDetails
    ensures Classify(f).response.message in FixedDetails
    ensures f.Integrity? && g.Integrity?
            && (Contains(f.text, "unique constraint") <==> Contains(g.text, "unique constraint"))
            ==> Classify(f).raised == Classify(g).raised
    ensures !f.Integrity? && !g.Integrity? && (f.SqlAlchemy? <==> g.SqlAlchemy?)
            ==> Classify(f).raised == Classify(g).raised
  {
  }

  /** How a wrapped operation ended: it returned a response, leaving the session in `state`, or
      it raised. A failed attempt records the state as of its last commit, which is where a
      rollback returns the session: a write already committed stays in the table. */
  datatype Attempt<S, D> = Completed(state: S, response: RepoResponse<D>) | Failed(state: S, fault: RepoFault)

  /** The wrapper's result: the session state afterwards, and the response or the raised exception. */
  datatype Handled<S, D> = Handled(state: S, result: Result<RepoResponse<D>, Exc>, rolledBack: bool)

  /** `handle_repo_errors(func)` applied to one call. */
  function HandleRepoErrors<S, D>(attempt: Attempt<S, D>): (h: Handled<S, D>)
    // a normal return passes through untouched, with no rollback
    ensures attempt.Completed? <==> h.result.Ok?
    ensures attempt.Completed? ==> h.result.value == attempt.response && !h.rolledBack
    // a failure rolls the session back, which keeps what was committed, and raises a 500
    ensures h.state == attempt.state
    ensures attempt.Failed? ==> h.rolledBack
    ensures h.result.Err? ==> StatusCode(h.result.error.kind) == Some(500) && h.result.error.detail in FixedDetails
    ensures attempt.Failed? ==> (attempt.fault.Integrity? <==> h.result.error.kind == DatabaseIntegrity)
                                && (attempt.fault.SqlAlchemy? <==> h.result.error.kind == Database)
  {
    match attempt
    case Completed(state, response) => Handled(state, Ok(response), false)
    case Failed(state, fault) =>
      DetailIsFixed(fault, fault);
      Handled(state, Err(Classify(fault).raised), true)
  }
}

=== FILE: responses.dfy ===
/** The two response records of the service: `StandardResponse`, which the API returns and the
    cache stores, and `RepositoryResponse`, which the repository hands to the service. */
module Responses {
  import opened Wrappers
  import opened Values

  /** `StandardResponse(data, status, message)`. `data` is a dict or `None`. */
  datatype StandardResponse = StandardResponse(data: Option<seq<Entry>>, status: string, message: Option<string>)

  /** `StandardResponse.to_dict()`: the three fields under their own names, `None` as JSON null. */
  function ToDict(r: StandardResponse): (d: seq<Entry>)
    ensures Keys(d) == ["data", "status", "message"]
    ensures Lookup(d, "status") == Some(VStr(r.status))
  {
    [ Entry("data", if r.data.Some? then VDict(r.data.value) else VNone),
      Entry("status", VStr(r.status)),
      Entry("message", if r.message.Some? then VStr(r.message.value) else VNone) ]
  }

  /** How the constructor treats an explicit `message=None`. The field is declared `str` with a
      `None` default: field validation as declared rejects an explicit `None`; the callers in the
      cache decorator pass one and evidently expect it to be taken as "no message". */
  datatype MessageRule = AsDeclared | NoneAllowed

  /** The keyword arguments given to `StandardResponse(...)`; `None` means "not passed". */
  datatype ResponseArgs = ResponseArgs(data: Option<Value>, status: Option<Value>, message: Option<Value>)

  /** `StandardResponse(**kwargs)` with the field validation of its declaration: `data` must be a
      dict or `None`, `status` a string (default "success"), `message` a string (default `None`).
      `None` stands for the validation error the constructor raises. */
  function Construct(args: ResponseArgs, rule: MessageRule): (r: Option<StandardResponse>)
    // built exactly when every passed field has an acceptable type
    ensures r.Some? <==> (args.data.None? || args.data.value.VNone? || args.data.value.VDict?)
                         && (args.status.None? || args.status.value.VStr?)
                         && (args.message.None? || args.message.value.VStr?
                             || (rule == NoneAllowed && args.message.value.VNone?))
    ensures r.Some? && args.data.Some? && args.data.value.VDict? ==> r.value.data == Some(args.data.value.entries)
    ensures r.Some? && (args.data.None? || args.data.value.VNone?) ==> r.value.data.None?
    ensures r.Some? && args.status.None? ==> r.value.status == "success"
    ensures r.Some? && args.status.Some? ==> args.status.value == VStr(r.value.status)
    ensures r.Some? && args.message.None? ==> r.value.message.None?
    ensures args.message.Some? && args.message.value.VStr? ==> (r.Some? ==> r.value.message == Some(args.message.value.s))
    ensures rule == AsDeclared && args.message == Some(VNone) ==> r.None?
  {
    var data: Option<Option<seq<Entry>>> :=
      match args.data
      case None => Some(None)
      case Some(VNone) => Some(None)
      case Some(VDict(e)) => Some(Some(e))
      case Some(_) => None;
    var status: Option<string> :=
      match args.status
      case None => Some("success")
      case Some(VStr(s)) => Some(s)
      case Some(_) => None;
    var message: Option<Option<string>> :=
      match args.message
      case None => Some(None)
      case Some(VStr(s)) => Some(Some(s))
      case Some(VNone) => if rule == NoneAllowed then Some(None) else None
      case Some(_) => None;
    if data.Some? && status.Some? && message.Some? then
      Some(StandardResponse(data.value, status.value, message.value))
    else None
  }

  /** `StandardResponse(**d)` for a dict `d`: keys other than the three fields are ignored. */
  function FromDict(d: seq<Entry>, rule: MessageRule): Option<StandardResponse>
  {
    Construct(ResponseArgs(Lookup(d, "data"), Lookup(d, "status"), Lookup(d, "message")), rule)
  }

  /** Rebuilding a response from its own `to_dict()` gives it back, once `None` is an acceptable message. */
  lemma FromToDict(r: StandardResponse)
    ensures FromDict(ToDict(r), NoneAllowed) == Some(r)
  {
  }

  /** With the field validated as declared, the same rebuild works exactly when the response has a message. */
  lemma FromToDictAsDeclared(r: StandardResponse)
    ensures FromDict(ToDict(r), AsDeclared).Some? <==> r.message.Some?
    ensures r.message.Some? ==> FromDict(ToDict(r), AsDeclared) == Some(r)
  {
  }

  /** `RepositoryResponse(status, error_code, message, data)` as built by `make_repo_response`. */
  datatype RepoResponse<D> = RepoResponse(status: string, errorCode: string, message: string, data: D)
}

=== FILE: text.dfy ===
/** String helpers with the meaning Python gives them on ASCII text:
    `startswith`, `in`, `lower`, `strip`, `int()` of a string, `str()` of an int,
    `<` on strings, and `sep.join(parts)`. */
module Text {
  import opened Wrappers

  predicate StartsWith(s: string, prefix: string) {
    |prefix| <= |s| && s[..|prefix|] == prefix
  }

  /** Python's `sub in s`. */
  predicate Contains(s: string, sub: string)
    decreases |s|
  {
    StartsWith(s, sub) || (|s| > 0 && Contains(s[1..], sub))
  }

  /** Python's `str.lower()` on ASCII letters; other characters are kept. */
  function LowerChar(c: char): char {
    if 'A' <= c <= 'Z' then (c as int - 'A' as int + 'a' as int) as char else c
  }

  function Lower(s: string): (r: string)
    ensures |r| == |s|
    ensures forall i :: 0 <= i < |s| ==> r[i] == LowerChar(s[i])
  {
    seq(|s|, i requires 0 <= i < |s| => LowerChar(s[i]))
  }

  /** The ASCII characters for which Python's `str.isspace()` holds. */
  predicate IsSpace(c: char) {
    c == ' ' || ('\t' <= c <= '\r') || (28 <= c as int <= 31)
  }

  /** The characters with the Unicode `White_Space` property, which Rust's `str::trim` drops.
      Python's full `str.isspace()` set contains all of them and also U+001C..U+001F, which this
      set lacks; against the ASCII part modelled by `IsSpace` it also holds U+0085, U+00A0 and
      the wide spaces. */
  predicate IsWhiteSpace(c: char) {
    || c == ' ' || ('\t' <= c <= '\r')
    || c == '\U{0085}' || c == '\U{00A0}' || c == '\U{1680}'
    || ('\U{2000}' <= c <= '\U{200A}')
    || c == '\U{2028}' || c == '\U{2029}' || c == '\U{202F}' || c == '\U{205F}' || c == '\U{3000}'
  }

  predicate IsDigit(c: char) {
    '0' <= c <= '9'
  }

  /** Drops leading characters of the whitespace set `ws`. */
  function TrimLeft(s: string, ws: char -> bool): (r: string)
    ensures |r| <= |s| && r == s[|s| - |r|..]
    ensures forall i :: 0 <= i < |s| - |r| ==> ws(s[i])
    ensures |r| == 0 || !ws(r[0])
  {
    if |s| > 0 && ws(s[0]) then
      var r := TrimLeft(s[1..], ws);
      assert forall i :: 1 <= i < |s| ==> s[i] == s[1..][i - 1];
      r
    else s
  }

  /** Drops trailing characters of the whitespace set `ws`. */
  function TrimRight(s: string, ws: char -> bool): (r: string)
    ensures |r| <= |s| && r == s[..|r|]
    ensures forall i :: |r| <= i < |s| ==> ws(s[i])
    ensures |r| == 0 || !ws(r[|r| - 1])
  {
    if |s| > 0 && ws(s[|s| - 1]) then TrimRight(s[..|s| - 1], ws) else s
  }

  /** Stripping for a whitespace set: the longest infix of `s` that neither starts nor ends with
      whitespace, every character outside it being whitespace. With `IsSpace` it is Python's
      `str.strip()`; with `IsWhiteSpace`, Rust's `str::trim`. */
  function Strip(s: string, ws: char -> bool): (r: string)
    ensures |r| <= |s|
    ensures |r| == 0 || (!ws(r[0]) && !ws(r[|r| - 1]))
  {
    TrimRight(TrimLeft(s, ws), ws)
  }

  /** Stripping twice is stripping once. */
  lemma StripIdempotent(s: string, ws: char -> bool)
    ensures Strip(Strip(s, ws), ws) == Strip(s, ws)
  {
    var r := Strip(s, ws);
    if |r| > 0 {
      assert TrimLeft(r, ws) == r;
      assert TrimRight(r, ws) == r;
    }
  }

  /** Text made only of whitespace strips to nothing. */
  lemma {:induction false} BlankStripsEmpty(s: string, ws: char -> bool)
    requires forall i :: 0 <= i < |s| ==> ws(s[i])
    ensures TrimLeft(s, ws) == "" && Strip(s, ws) == ""
    decreases |s|
  {
    if |s| > 0 {
      assert forall i :: 0 <= i < |s[1..]| ==> s[1..][i] == s[i + 1];
      BlankStripsEmpty(s[1..], ws);
    }
  }

  /** The two modelled sets disagree: U+001F, which Python strips and `str::trim` keeps, and a
      no-break space, which `str::trim` strips and the ASCII-only `IsSpace` keeps (Python's full
      set would strip it too). */
  lemma WhiteSpaceSetsDiffer()
    ensures Strip("\U{00A0}", IsWhiteSpace) == "" && Strip("\U{00A0}", IsSpace) == "\U{00A0}"
    ensures Strip("\U{001F}", IsSpace) == "" && Strip("\U{001F}", IsWhiteSpace) == "\U{001F}"
  {
    var nbsp, us := '\U{00A0}', '\U{001F}';
    assert IsWhiteSpace(nbsp) && !IsSpace(nbsp);
    assert IsSpace(us) && !IsWhiteSpace(us);
    assert "\U{00A0}" == [nbsp] && "\U{001F}" == [us];
    BlankStripsEmpty([nbsp], IsWhiteSpace);
    BlankStripsEmpty([us], IsSpace);
    KeptByStrip(nbsp, IsSpace);
    KeptByStrip(us, IsWhiteSpace);
  }

  /** A single character outside the whitespace set is its own strip. */
  lemma KeptByStrip(c: char, ws: char -> bool)
    requires !ws(c)
    ensures Strip([c], ws) == [c]
  {
    assert TrimLeft([c], ws) == [c];
  }

  /** Each character of `s` lies inside its strip or is whitespace. */
  lemma StripCovers(s: string, ws: char -> bool) returns (k: nat)
    ensures k + |Strip(s, ws)| <= |s|
    ensures Strip(s, ws) == s[k..k + |Strip(s, ws)|]
    ensures forall i :: 0 <= i < k ==> ws(s[i])
    ensures forall i :: k + |Strip(s, ws)| <= i < |s| ==> ws(s[i])
  {
    var l := TrimLeft(s, ws);
    k := |s| - |l|;
    var r := TrimRight(l, ws);
    assert l == s[k..];
    assert r == l[..|r|] == s[k..k + |r|];
    forall i | k + |r| <= i < |s|
      ensures ws(s[i])
    {
      assert s[i] == l[i - k] && |r| <= i - k < |l|;
    }
  }

  /** Digits separated by single underscores, starting and ending with a digit
      (the digit part Python's `int()` accepts). */
  predicate DigitGroups(s: string) {
    && |s| > 0
    && IsDigit(s[0])
    && IsDigit(s[|s| - 1])
    && forall i :: 0 <= i < |s| - 1 ==> GroupStep(s, i)
  }

  /** Position `i` holds a digit, or an underscore followed by a digit. */
  predicate GroupStep(s: string, i: nat)
    requires i + 1 < |s|
  {
    IsDigit(s[i]) || (s[i] == '_' && IsDigit(s[i + 1]))
  }

  /** The decimal value of the digits of `s`, underscores ignored. */
  function DigitsValue(s: string): nat
  {
    if |s| == 0 then 0
    else if IsDigit(s[|s| - 1]) then DigitsValue(s[..|s| - 1]) * 10 + (s[|s| - 1] as int - '0' as int)
    else DigitsValue(s[..|s| - 1])
  }

  /** A character that can appear in a string that `int()` accepts. */
  predicate IntChar(c: char) {
    IsDigit(c) || IsSpace(c) || c == '+' || c == '-' || c == '_'
  }

  /** Python's `int(s)` for a `str` in base 10, restricted to ASCII: surrounding whitespace,
      an optional sign, then digit groups. `None` stands for the `ValueError` it raises. */
  function ParseInt(s: string): Option<int>
  {
    var t := Strip(s, IsSpace);
    if |t| > 0 && (t[0] == '+' || t[0] == '-') then
      var n: int := DigitsValue(t[1..]);
      if DigitGroups(t[1..]) then Some(if t[0] == '-' then -n else n)
      else None
    else if DigitGroups(t) then Some(DigitsValue(t))
    else None
  }

  /** A string that `int()` accepts holds only digits, whitespace, signs and underscores;
      in particular none of the glob metacharacters `*`, `?`, `[`. */
  lemma ParsedTextChars(s: string)
    requires ParseInt(s).Some?
    ensures forall i :: 0 <= i < |s| ==> IntChar(s[i])
  {
    var t := Strip(s, IsSpace);
    var k := StripCovers(s, IsSpace);
    StrippedNumberChars(t);
    forall i | k <= i < k + |t|
      ensures IntChar(s[i])
    {
      assert s[i] == t[i - k];
    }
  }

  /** The stripped text of an accepted number: a sign, then digit groups, or digit groups alone. */
  lemma StrippedNumberChars(t: string)
    requires (|t| > 0 && (t[0] == '+' || t[0] == '-') && DigitGroups(t[1..])) || DigitGroups(t)
    ensures forall j :: 0 <= j < |t| ==> IntChar(t[j])
  {
    if |t| > 0 && (t[0] == '+' || t[0] == '-') && DigitGroups(t[1..]) {
      GroupChars(t[1..]);
      forall j | 1 <= j < |t| ensures IntChar(t[j]) {
        assert t[j] == t[1..][j - 1];
      }
    } else {
      GroupChars(t);
    }
  }

  /** Digit groups hold only digits and underscores. */
  lemma GroupChars(d: string)
    requires DigitGroups(d)
    ensures forall j :: 0 <= j < |d| ==> IsDigit(d[j]) || d[j] == '_'
  {
    forall j | 0 <= j < |d| ensures IsDigit(d[j]) || d[j] == '_' {
      if j < |d| - 1 {
        assert GroupStep(d, j);
      }
    }
  }

  function DigitChar(d: nat): (c: char)
    requires d < 10
    ensures IsDigit(c) && c as int - '0' as int == d
  {
    ('0' as int + d) as char
  }

  /** Python's `str(n)` for a non-negative int. */
  function NatDecimal(n: nat): (r: string)
    ensures |r| > 0
    ensures forall i :: 0 <= i < |r| ==> IsDigit(r[i])
  {
    if n < 10 then [DigitChar(n)] else NatDecimal(n / 10) + [DigitChar(n % 10)]
  }

  /** Python's `str(i)` for an int. */
  function Decimal(i: int): string {
    if i < 0 then "-" + NatDecimal(-i) else NatDecimal(i)
  }

  lemma {:induction false} NatDecimalValue(n: nat)
    ensures DigitGroups(NatDecimal(n))
    ensures DigitsValue(NatDecimal(n)) == n
  {
    var r := NatDecimal(n);
    if n >= 10 {
      NatDecimalValue(n / 10);
      assert r[..|r| - 1] == NatDecimal(n / 10);
    }
  }

  /** `int(str(i)) == i`: the decimal rendering of an int parses back to it. */
  lemma DecimalRoundTrip(i: int)
    ensures ParseInt(Decimal(i)) == Some(i)
  {
    var n: nat := if i < 0 then -i else i;
    NatDecimalValue(n);
    DecimalStripped(i);
    if i < 0 {
      assert Decimal(i)[1..] == NatDecimal(n);
    }
  }

  /** The decimal rendering of an int has no surrounding whitespace. */
  lemma DecimalStripped(i: int)
    ensures Strip(Decimal(i), IsSpace) == Decimal(i)
  {
    var d := Decimal(i);
    assert !IsSpace(d[0]);
    assert !IsSpace(d[|d| - 1]);
    assert TrimLeft(d, IsSpace) == d;
  }

  /** Python's `a < b` on strings: lexicographic by code point. */
  predicate LexLess(a: string, b: string)
    decreases |a|
  {
    if |a| == 0 then |b| > 0
    else if |b| == 0 then false
    else if a[0] == b[0] then LexLess(a[1..], b[1..])
    else a[0] < b[0]
  }

  lemma {:induction false} LexLessIrreflexive(a: string)
    ensures !LexLess(a, a)
    decreases |a|
  {
    if |a| > 0 {
      LexLessIrreflexive(a[1..]);
    }
  }

  lemma {:induction false} LexLessTransitive(a: string, b: string, c: string)
    requires LexLess(a, b) && LexLess(b, c)
    ensures LexLess(a, c)
    decreases |a|
  {
    if |a| > 0 && |b| > 0 && |c| > 0 && a[0] == b[0] && b[0] == c[0] {
      LexLessTransitive(a[1..], b[1..], c[1..]);
    }
  }

  /** Distinct strings are ordered one way or the other. */
  lemma {:induction false} LexLessTotal(a: string, b: string)
    requires a != b
    ensures LexLess(a, b) || LexLess(b, a)
    decreases |a|
  {
    if |a| > 0 && |b| > 0 && a[0] == b[0] {
      assert a == [a[0]] + a[1..] && b == [b[0]] + b[1..];
      LexLessTotal(a[1..], b[1..]);
    }
  }

  lemma LexLessAsymmetric(a: string, b: string)
    requires LexLess(a, b)
    ensures !LexLess(b, a)
  {
    if LexLess(b, a) {
      LexLessTransitive(a, b, a);
      LexLessIrreflexive(a);
    }
  }

  /** Python's `sep.join(parts)`. */
  function Join(parts: seq<string>, sep: string): string
  {
    if |parts| == 0 then ""
    else if |parts| == 1 then parts[0]
    else parts[0] + sep + Join(parts[1..], sep)
  }
}

=== FILE: values.dfy ===
/** The Python values that flow through the cache: JSON-like data plus opaque objects
    (such as `datetime`) that `json.dumps` cannot encode without help. */
module Values {
  import opened Wrappers

  datatype Value =
    | VNone
    | VBool(b: bool)
    | VInt(i: int)
    | VFloat(f: real)
    | VStr(s: string)
    | VList(items: seq<Value>)
    | VDict(entries: seq<Entry>)
    /** Any other object; `text` is its `str()`. */
    | VObject(text: string)

  /** One key/value pair of a dict, in insertion order. */
  datatype Entry = Entry(key: string, val: Value)

  /** Python's `bool(v)`: `None`, `False`, zero, and empty strings and containers are falsy;
      other objects are truthy. */
  predicate Truthy(v: Value) {
    match v
    case VNone => false
    case VBool(b) => b
    case VInt(i) => i != 0
    case VFloat(f) => f != 0.0
    case VStr(s) => |s| > 0
    case VList(items) => |items| > 0
    case VDict(entries) => |entries| > 0
    case VObject(_) => true
  }

  function Keys(entries: seq<Entry>): (ks: seq<string>)
    ensures |ks| == |entries|
    ensures forall i :: 0 <= i < |entries| ==> ks[i] == entries[i].key
  {
    seq(|entries|, i requires 0 <= i < |entries| => entries[i].key)
  }

  /** `dict(entries).get(key)`: a dict built from these pairs keeps the last value given for a key. */
  function Lookup(entries: seq<Entry>, key: string): (r: Option<Value>)
    ensures r.None? <==> key !in Keys(entries)
    ensures r.Some? ==> exists i :: 0 <= i < |entries| && entries[i] == Entry(key, r.value)
  {
    if |entries| == 0 then None
    else if entries[|entries| - 1].key == key then Some(entries[|entries| - 1].val)
    else
      assert Keys(entries) == Keys(entries[..|entries| - 1]) + [entries[|entries| - 1].key];
      Lookup(entries[..|entries| - 1], key)
  }

  /** A key that occurs once is looked up to the value beside it. */
  lemma {:induction false} LookupUnique(entries: seq<Entry>, i: nat)
    requires i < |entries|
    requires forall j :: 0 <= j < |entries| && j != i ==> entries[j].key != entries[i].key
    ensures Lookup(entries, entries[i].key) == Some(entries[i].val)
    decreases |entries|
  {
    var n := |entries| - 1;
    if i < n {
      LookupUnique(entries[..n], i);
    }
  }

  /** `json.dumps(v)` succeeds: no opaque object occurs anywhere in `v`. */
  predicate IsJson(v: Value) {
    match v
    case VList(items) => forall i :: 0 <= i < |items| ==> IsJson(items[i])
    case VDict(entries) => forall i :: 0 <= i < |entries| ==> IsJson(entries[i].val)
    case VObject(_) => false
    case _ => true
  }

  /** The value `json.loads(json.dumps(v, default=str))` gives back: every opaque object
      is replaced by its `str()`, everything else is kept. */
  function Stringify(v: Value): (r: Value)
    ensures IsJson(r)
    ensures IsJson(v) ==> r == v
  {
    match v
    case VList(items) =>
      var out := seq(|items|, i requires 0 <= i < |items| => Stringify(items[i]));
      assert IsJson(v) ==> out == items;
      VList(out)
    case VDict(entries) =>
      var out := seq(|entries|, i requires 0 <= i < |entries| => Entry(entries[i].key, Stringify(entries[i].val)));
      assert IsJson(v) ==> out == entries;
      VDict(out)
    case VObject(text) => VStr(text)
    case _ => v
  }
}

=== FILE: wrappers.dfy ===
/** Option and Result, the two failure-carrying shapes every other module uses. */
module Wrappers {

  /** A value that may be absent (Python's `None`). */
  datatype Option<+T> = None | Some(value: T) {

    /** The carried value, or `default` when absent. */
    function GetOr(default: T): T {
      match this
      case Some(v) => v
      case None => default
    }
  }

  /** The outcome of a step that either yields a value or fails with an error. */
  datatype Result<+T, +E> = Ok(value: T) | Err(error: E)
}
